=== FILE: README.md ===
# street_view_crawler, modelled in Dafny

The crawler reads a table of sample points (`PID`, `Lon`, `Lat`). For each
point it converts the WGS-84 coordinate to Baidu Mercator and asks the Baidu
street-view service for the nearest panorama id. It then fetches that
panorama's metadata, optionally following the timeline to a panorama of a
requested year. Last, it downloads either four directional views or a tiled
panorama that it stitches into one image. Every point gets one status:
`success`, `coordinate_failure`, `no_panorama`, `metadata_failure`,
`image_failure` or `error: …`. The crawler appends one merged result row per
point to an output table in batches. It also keeps a checkpoint file of
processed ids so that an interrupted run can resume.

The model has one Dafny module per source file:

- `Common` (`common.dfy`): optional values, Python truthiness of an optional
  string, and order-preserving filtering.
- `Grid` (`grid.dfy`): the row-major `(row, col)` enumeration shared by tile
  submission and stitching.
- `ImageUtils` (`image_utils.dfy`): `stitch_tiles` as a tile layout (sizes
  and offsets, no pixels).
- `Panorama` (`panorama.dfy`): `calculate_tile_info`, tile requests and
  their collection, and `download_panorama`.
- `StreetView` (`street_view.dfy`): `calculate_headings` and
  `download_directional_images`.
- `MetaData` (`meta_data.dfy`): `get_panorama_id` and
  `get_panorama_metadata`, including the timeline redirect.
- `HttpClient` (`http_client.dfy`): the client's defaults, the retry loop of
  `get`, and the JSONP unwrapping of `get_json`.
- `FileIO` (`file_io.dfy`): `save_progress` / `load_progress`, including
  universal-newline reading and `str.strip`.
- `Orchestrator` (`orchestrator.dfy`): `process_sample_point`, the resume
  filter and the batch loop of `main`.

Every server reply is a function parameter (an oracle), and so is every file
write and image save. The model therefore states what the crawler does for
every possible reply.

## Model

| member | source | states |
|---|---|---|
| Common.Filter | main.py:188-191 | Keeps exactly the elements that satisfy the predicate, each taken from the input, and is never longer than the input. |
| Common.FilterIsSubsequence | core/street_view.py:124-132 | Filtering keeps the input's relative order. |
| Common.FilterDistinct | core/street_view.py:124-132 | A duplicate-free input gives a duplicate-free result. |
| Common.FilterLength | main.py:193 | The filtered length is the number of satisfying elements. |
| Grid.RowCellsFacts | core/panorama.py:97 | Row `r` of the enumeration is the cells `(r, 0) … (r, cols-1)` in order; a non-positive `cols` gives none. |
| Grid.GridCellsLength | core/panorama.py:96-97 | The double `range` loop visits `rows * cols` cells (none when either bound is non-positive). |
| Grid.GridCellsIndex | core/panorama.py:96-97 | Cell `(r, c)` inside the grid is visited at position `r * cols + c`. |
| Grid.GridCellsAt | utils/image_utils.py:61-62 | The `k`-th visited cell is `(k // cols, k % cols)`. |
| Grid.GridCellsInGrid | core/panorama.py:96-97 | Every visited cell lies inside the grid. |
| Grid.GridCellsDistinct | core/panorama.py:96-105 | No cell is submitted twice. |
| ImageUtils.StitchTiles | utils/image_utils.py:23-68 | It raises exactly when a bound is non-positive (`pil_tiles[0][0]` fails), when a cell is missing while no tile exists (`next` fails), or when an image the loop opens does not decode (`Image.open` fails): a present tile, or the example tile for a missing cell. Otherwise the canvas is `cols*w` by `rows*h`, where `w`, `h` are the size of tile `(0,0)`. There is one placement per cell in row-major order, at `(col*w, row*h)`, holding the downloaded tile or a white blank the size of the example tile. |
| ImageUtils.StitchLayout | utils/image_utils.py:36-63 | When every opened image decodes, the layout has one placement per cell in row-major order, each at its cell's offset in tiles the size of tile `(0,0)`, holding that cell's own tile or the blank. |
| ImageUtils.UndecodableTileFails | utils/image_utils.py:39-41 | An in-grid tile whose bytes do not decode makes the whole stitch raise, whatever the other tiles are. |
| ImageUtils.StitchEveryCellOnce | utils/image_utils.py:61-63 | Every grid cell is pasted exactly once and no other cell is pasted. |
| ImageUtils.StitchUniform | utils/image_utils.py:47-58 | With equally sized tiles, every placement, blanks included, has the canvas's tile size. |
| ImageUtils.StitchDisjoint | utils/image_utils.py:61-63 | With equally sized tiles, no two pasted tiles overlap. |
| ImageUtils.StitchInside | utils/image_utils.py:58-63 | With equally sized tiles, every pasted tile lies inside the canvas. |
| ImageUtils.StitchCovers | utils/image_utils.py:58-63 | With equally sized tiles, every canvas pixel is covered by a pasted tile. |
| Panorama.TileInfo | core/panorama.py:13-34 | The grid always has at least one row and one column, and at most 128 tiles. For zoom 2 to 5 it is twice as wide as tall. |
| Panorama.TileInfoDoubling | core/panorama.py:22-31 | For zoom 1 to 5, the column count is `2^(zoom-1)` and the row count `2^(zoom-2)` (1 at zoom 1). |
| Panorama.TileInfoFallback | core/panorama.py:32-34 | Any zoom outside 1 to 5 gives the zoom-3 grid, `(2, 4)`. |
| Panorama.TileRequestsCoverGrid | core/panorama.py:86-106 | There is one request per grid cell, submitted in row-major order: request `k` is for cell `(k // cols, k % cols)`. Each carries the panorama id and zoom, and no position is requested twice. |
| Panorama.CollectFirst | core/panorama.py:108-114 | Collecting a prefix of the replies keeps a tile for a position only if some request for it brought data. It keeps one for every such request, holding that request's data. |
| Panorama.CollectTiles | core/panorama.py:108-114 | The same as `CollectFirst`, for all the replies. |
| Panorama.CollectedTilesExact | core/panorama.py:96-114 | A position holds a tile exactly when it is in the grid and its download brought non-empty data, and the tile is that data. |
| Panorama.DownloadPanorama | core/panorama.py:67-138 | An empty id requests nothing and returns `None`. Otherwise every grid tile is requested. A path is returned exactly when some tile arrived, every image the stitcher opens decodes, and the save succeeded; a stitch error is caught and returns `None`. That path is the panoramic file name of the point, and the image has `rows * cols` placements. |
| Panorama.PanoramaFromPartialTiles | core/panorama.py:116-132 | One arrived tile is enough, as long as the tiles that arrive decode: a partial set of tiles is stitched and saved. |
| Panorama.UndecodableTileLosesPanorama | core/panorama.py:120-138 | One arrived in-grid tile that does not decode loses the whole panorama. |
| StreetView.CalculateHeadings | core/street_view.py:13-41 | In exact arithmetic there are four headings, 90 degrees apart, heading `k` lying `90 * k` past the first. They are the absolute ones when the move direction is off or missing; otherwise they include the move direction. |
| StreetView.HeadingsInRange | core/street_view.py:34-41 | In exact arithmetic, for a move direction `m` in `[0, 360)`, the first heading is `m` minus 90 times its quadrant and lies in `[0, 90)`. Every heading lies in `[0, 360)`, and the quadrant's heading is `m` itself. |
| StreetView.HeadingsAt360 | core/street_view.py:40-41 | A move direction of exactly 360 falls into the last branch and yields `[90, 180, 270, 360]`. |
| StreetView.DownloadDirectionalImages | core/street_view.py:81-139 | An empty id yields no paths. Otherwise the result holds exactly the headings whose download returned data and whose save succeeded, and at most four of them. |
| StreetView.DirectionalInHeadingOrder | core/street_view.py:124-139 | The returned paths keep heading order and contain no duplicates. |
| MetaData.GetPanoramaId | core/meta_data.py:10-49 | A missing coordinate makes no query and yields `None`. Otherwise exactly one query is made, and the id is returned exactly when the reply arrived with a non-empty `content.id`. |
| MetaData.FirstYearMatch | core/meta_data.py:86-94 | It finds the first timeline entry whose year equals the target, or reports that none does. |
| MetaData.Decide | core/meta_data.py:73-106 | A failed reply or one with empty `content` fails. With a target year, a `TimeLine` of `null` fails. There is no redirect without a target year. A redirect goes to a non-empty id different from the current one. Resolving keeps the current id and the first content entry. |
| MetaData.GetPanoramaMetadata | core/meta_data.py:52-106 | An empty id fetches nothing. Otherwise the given id is fetched first, at most two ids are fetched, and only one without a year. A failed or empty first reply ends after that one fetch with no result, whether or not a year is requested. A result is the last fetched id with the first content entry of its reply and that entry's move direction. |
| MetaData.YearAbsentFails | core/meta_data.py:96-98 | A target year missing from the timeline fails after one fetch and never falls back to another year. |
| MetaData.FirstMatchRedirects | core/meta_data.py:86-94 | The first matching entry decides. A different non-empty id is fetched once without a year. A missing id fails, and the current id resolves in place. |
| MetaData.NullTimelineFailsOnlyWithYear | core/meta_data.py:82-106 | A `TimeLine` of `null` fails after one fetch when a year is requested, since iterating it raises and the error is caught. Without a year the same reply resolves. |
| MetaData.NoYearResolvesInPlace | core/meta_data.py:82-103 | Without a target year, the result is the queried id itself whenever its reply has content. |
| HttpClient.NewClient | utils/http_client.py:16-20 | Each falsy argument (`None`, `0`, `0.0`, `{}`) takes its default. Every other value is kept, so no field is ever falsy. |
| HttpClient.NewClientIdempotent | utils/http_client.py:16-20 | Rebuilding a client from its own settings changes nothing. |
| HttpClient.SharedClient | utils/http_client.py:83 | The shared client has 3 retries, a 2-second delay, a 30-second timeout and the configured headers. |
| HttpClient.MergeHeaders | utils/http_client.py:27-29 | The request headers are the client's, overridden key by key by the per-call ones. |
| HttpClient.Get | utils/http_client.py:24-57 | Attempts and jittered sleeps alternate. The first 200 response is returned, and all earlier attempts failed. A negative sleep before another attempt makes `time.sleep` raise out of the loop, since it lies outside the `try`. Otherwise the call fails after `Budget(c)` attempts (`max_retries + 1`, or 0 when that is negative), all failed, with one sleep fewer than attempts, or none when there is no attempt. |
| HttpClient.SleepValidity | utils/http_client.py:52-55 | With a `random.random()` draw in [0, 1), a sleep is accepted exactly when `retry_delay` is non-negative; a negative delay, which the constructor keeps, makes the first retry raise. |
| HttpClient.NonNegativeDelaySleepsValid | utils/http_client.py:52-55 | With a non-negative delay, no sleep is rejected. |
| HttpClient.AlternatesPrefix | utils/http_client.py:31-55 | Every prefix of an alternating attempt-and-sleep trace alternates. |
| HttpClient.AlternatingCounts | utils/http_client.py:31-55 | A trace of `n` attempts holds `n - 1` sleeps and ends with attempt `n - 1`. |
| HttpClient.SleepsBounded | utils/http_client.py:53 | Every sleep lasts between `retry_delay` and `2 * retry_delay`. |
| HttpClient.Find | utils/http_client.py:67 | `str.find`: the first index of the character, or -1 when it is absent. |
| HttpClient.RFind | utils/http_client.py:67 | `str.rfind`: the last index of the character, or -1 when it is absent. |
| HttpClient.JsonpRoundTrip | utils/http_client.py:65-68 | Wrapping a payload as `/**/jsonp.<callback>(<payload>)` and unwrapping it gives the payload back. |
| HttpClient.JsonpWithoutCloser | utils/http_client.py:67 | When the `)` is missing, `rfind` returns -1 and the slice drops the payload's last character. |
| HttpClient.DecodeBody | utils/http_client.py:64-74 | The body parses exactly when its JSON part does, and to that part's value. For a JSONP body that part is the unwrapped payload, otherwise the whole text. A decoding failure is never a request failure. |
| HttpClient.DecodeJsonpBody | utils/http_client.py:64-74 | A JSONP body decodes to exactly what its payload parses to. |
| HttpClient.GetJson | utils/http_client.py:59-74 | The request fails exactly when no attempt in the budget got a 200 and every sleep was accepted. A negative sleep raises its own error. Otherwise it decodes the body of the first attempt that got a 200. |
| FileIO.StripLeft | utils/file_io.py:50 | Removing leading whitespace leaves a suffix that does not start with whitespace, and everything removed is whitespace. |
| FileIO.StripRight | utils/file_io.py:50 | Removing trailing whitespace leaves a prefix that does not end with whitespace, and everything removed is whitespace. |
| FileIO.Strip | utils/file_io.py:50 | The stripped text is a slice of the line with whitespace at neither end, and only whitespace lies outside it. |
| FileIO.LineLength | utils/file_io.py:50 | The first line of a non-empty text is non-empty and no longer than the text. It holds no `\n` before its last character, and it ends in `\n` unless it runs to the end of the text. |
| FileIO.SaveProgress | utils/file_io.py:56-64 | A completed write replaces the file with one line `id\n` per id, in order, for clean ids. A failed open leaves the previous content. A write that fails later leaves a prefix of the full text, because opening with `'w'` emptied the file. In every case the file is unchanged or a prefix of the full text. |
| FileIO.SerializeAppend | utils/file_io.py:60-61 | Writing two lists of ids one after the other gives the text of their concatenation. |
| FileIO.InterruptedSaveKeepsWrittenIds | utils/file_io.py:43-64 | A save cut off at a line boundary loads back exactly the ids written before the cut. |
| FileIO.LoadProgress | utils/file_io.py:43-53 | A missing or unreadable file gives the empty set. Otherwise the set holds exactly the stripped lines of the file as read in text mode. |
| FileIO.TranslateNoReturn | utils/file_io.py:49 | Text without carriage returns is read unchanged. |
| FileIO.LineLengthOfLine | utils/file_io.py:50 | A line ending in `\n` is read as that line. |
| FileIO.SerializeNoReturn | utils/file_io.py:60-61 | Writing clean ids produces no carriage return. |
| FileIO.LinesOfSerialize | utils/file_io.py:50-61 | Reading back the written file yields the written lines, in order. |
| FileIO.StripLine | utils/file_io.py:50 | Stripping a written line gives back its id. |
| FileIO.StripSavedLines | utils/file_io.py:50 | Stripping the written lines gives back exactly the set of written ids. |
| FileIO.ProgressRoundTrip | utils/file_io.py:43-64 | Loading what was saved gives back the set of saved ids. |
| FileIO.ProgressIgnoresOrder | utils/file_io.py:56-61 | The order in which the set is iterated when saving does not change what is loaded. |
| Orchestrator.Truncate | main.py:142 | The error message is cut to its first 100 characters. |
| Orchestrator.AcquireImages | main.py:116-124 | The directional strategy yields at most four paths, the panoramic one at most one. |
| Orchestrator.ProcessSamplePoint | main.py:55-144 | An exception from the transform is `error: ` with the cut message, exactly when the transform raises. A missing coordinate is `coordinate_failure`, exactly then. `no_panorama` arises exactly when the coordinates convert but the id lookup gives a falsy id. `metadata_failure` arises exactly when the id is present and the metadata is missing or its content empty. `no_panorama` and `metadata_failure` carry no metadata, and the latter reports the pre-redirect id. On the image branches the id, move direction and content are those of the resolved metadata, and the paths are what the configured downloader returns. `BD_ImagePaths` is present exactly for `success` and `image_failure`, and it is non-empty exactly for `success`. |
| Orchestrator.CoordinateFailureShortCircuits | main.py:79-87 | After a coordinate failure no other service influences the result. |
| Orchestrator.NoPanoramaShortCircuits | main.py:92-100 | After a missing panorama id, neither metadata nor images influence the result. |
| Orchestrator.MetadataFailureShortCircuits | main.py:105-113 | After a metadata failure, no image download influences the result. |
| Orchestrator.YearAbsentIsMetadataFailure | main.py:103-113 | A target year absent from the timeline makes the point a `metadata_failure`. |
| Orchestrator.PanoramicTilesGiveSuccess | main.py:120-124 | In panoramic mode, one arrived tile, tiles that decode and a successful save give `success` with the single panorama path. |
| Orchestrator.ResultColumns | main.py:81-86 | The result has exactly the keys `BD_ID`, `BD_MoveDir`, `BD_Content` and `process_status`, plus `BD_ImagePaths` on the image branches. |
| Orchestrator.OutputRow | main.py:229 | The merged row has the input columns, `_pid_str` and the result keys. Result values override input values, and every other input value passes through. |
| Orchestrator.ProcessedPids | main.py:174-182 | Nothing counts as processed unless resuming with an existing output file. Then it is that file's `PID` column when present, else the checkpoint file. |
| Orchestrator.ResumeProcessesComplement | main.py:186-191 | Exactly the points whose id is not processed remain, in input order and with repeated rows kept: one pending point per unprocessed input row. When every id is processed, nothing remains. |
| Orchestrator.BatchesPartition | main.py:211-212 | The batches concatenate to the pending points. Each is non-empty and at most `batch` long, and all but the last are exactly `batch` long. |
| Orchestrator.BatchesLength | main.py:211 | There is one batch per started run of `batch` points. |
| Orchestrator.BatchCount | main.py:214 | There are `(total - 1) // batch + 1` batches. |
| Orchestrator.ProcessBatch | main.py:219-236 | Every point of a batch is processed in order, giving its merged row, and its id is added to the checkpoint set. |
| Orchestrator.RunBatches | main.py:211-254 | The table becomes the prior rows followed by one merged row per pending point, in order. Every pending id is added to the checkpoint set. The table is flushed once per batch, with a delay between consecutive batches. |
| Orchestrator.Crawl | main.py:147-272 | A missing required column stops the run, naming the first one missing in the order `PID`, `Lon`, `Lat`. With the columns present, the run reports nothing to do exactly when no point is pending, and a batch-size error exactly when points are pending and the batch size is 0; otherwise it finishes. A negative batch size processes and saves nothing. Otherwise the saved table is the prior rows plus one merged row per pending point, the checkpoint set grows by the pending ids, and there are `(total - 1) // batch` delays. |
| Orchestrator.ProcessPending | main.py:174-254 | After the column check: nothing to do exactly when no point is pending, a batch-size error exactly when points are pending and the size is 0, otherwise the batch loop appends one merged row per pending point to the prior rows and checkpoints every pending id. |
| Orchestrator.RunPending | main.py:201-254 | With points pending and a positive batch size, the run finishes having processed every pending point: the saved table is the prior rows plus one merged row per pending point, every pending id is checkpointed, and there are `(total - 1) // batch` delays. |

## Left out

- The coordinate transform `core.coordinate.wgs2bd09mc` is not part of this model. It is the oracle `transform`, which may return a missing coordinate or raise. `core/coordinate_api.py`, `core/coordinate_math.py` and `core/coord_compare.py` are not modelled.
- Orchestrator.ProcessSamplePoint: only the transform can raise. Other exceptions that would reach its `except` are left out, such as `float(move_dir)` on a non-numeric `MoveDir`, `os.makedirs` failing, or an error in `str(content)`. The id lookup, metadata and download functions catch their own exceptions.
- Thread pools: the tile and view downloads run sequentially in submission order. `as_completed` may collect tiles in another order. That changes only which existing tile `next(iter(tiles.values()))` picks as the size of a blank, which the model takes from the first collected tile.
- The retry sleep, `time.sleep(BATCH_DELAY)` and `random.random()` are events or parameters (`jitter`). No time passes. A negative retry sleep is modelled as the `ValueError` it raises.
- Pixels, JPEG decoding and encoding, and PIL are left out. A tile is its byte count and the size it decodes to, or none when `Image.open` cannot read it. A stitched image is its canvas size and tile placements. An image that opens but fails later, at `paste` or `save`, counts as a failed save.
- JSON parsing is a `parse` oracle. The `requests` session, URLs and query parameters are left out; a reply is an `Attempt` per attempt number.
- `get_image` is folded into the fetch oracles of the tile and view downloads. `save_image`, `read_csv`, `save_csv`, `os.makedirs`, the logger and `argparse` are left out; a save is a boolean oracle.
- File names are structured values (`ImagePath`). Their text, `f"{heading:.1f}"` and `str(lon)`, is not rendered. `BD_Content` and `BD_ImagePaths` are likewise kept as values, not `str(content)` or `','.join(...)`.
- The checkpoint file write after every point is modelled as the final set of processed ids (`FileIO.SaveProgress` states one write). The deletion of the progress file after the loop is not modelled.
- FileIO.SaveProgress: what `load_progress` reads back from a write cut inside a line is not stated. The truncated last id would load as an id of its own; `FileIO.InterruptedSaveKeepsWrittenIds` covers only cuts at a line boundary.
- pandas: the column union of `pd.concat`, and the type conversions of `read_csv` / `astype(str)`, are left out. Rows are maps from column name to value.
- An exception from `save_csv` or any other I/O in the batch loop (the outer `sys.exit(1)`) is modelled only for the `range` step of 0.
- StreetView.HeadingsInRange / StreetView.CalculateHeadings: headings are exact reals, not IEEE doubles. The range `[0, 360)` and the exact 90-degree spacing do not hold of the float program at quadrant edges, where `move_dir + 270` can round up to 360.0; for example `move_dir = 89.99999999999999` gives a last heading of 360.0.
- HttpClient.JsonpRoundTrip: requires a callback without `(`, because `find('(')` would otherwise stop inside the callback name.
- The configuration of `STREET_VIEW_CONFIG` (pitch, fovy, quality, width, height) is only passed through to the server and is left out.

=== FILE: common.dfy ===
/** Small shared vocabulary: optional values, Python truthiness of optional
    strings, and order-preserving filtering of sequences. */
module Common {

  /** Python's `None` or a value. */
  datatype Option<T> = None | Some(value: T)

  /** A value, or the error a Python call would have raised instead. */
  datatype Result<T, E> = Success(value: T) | Failure(error: E)

  /** A saved image file, named after the sample point it was taken for:
      `{pid}_{heading:.1f}_{lon}_{lat}.jpg` in the directional image directory,
      or `{pid}_{lon}_{lat}.jpg` in the panoramic one. */
  datatype ImagePath =
    | DirectionalPath(pid: string, heading: real, lon: real, lat: real)
    | PanoramicPath(pid: string, lon: real, lat: real)

  /** Python truthiness of an optional string: `None` and `""` are both false. */
  predicate Present(s: Option<string>) {
    s.Some? && s.value != ""
  }

  /** Keeps the elements of `s` that satisfy `p`, in their original order
      (a list comprehension with an `if`). */
  function Filter<T(==)>(s: seq<T>, p: T -> bool): (r: seq<T>)
    ensures |r| <= |s|
    ensures forall i :: 0 <= i < |r| ==> r[i] in s && p(r[i])
    ensures forall i :: 0 <= i < |s| && p(s[i]) ==> s[i] in r
  {
    if s == [] then []
    else if p(s[0]) then [s[0]] + Filter(s[1..], p)
    else Filter(s[1..], p)
  }

  /** `a` can be obtained from `b` by deleting elements: same elements, same
      relative order. */
  predicate IsSubsequence<T(==)>(a: seq<T>, b: seq<T>)
    decreases |b|
  {
    if a == [] then true
    else if b == [] then false
    else if a[0] == b[0] then IsSubsequence(a[1..], b[1..])
    else IsSubsequence(a, b[1..])
  }

  /** Filtering never reorders: its result is a subsequence of its input. */
  lemma {:induction false} FilterIsSubsequence<T>(s: seq<T>, p: T -> bool)
    ensures IsSubsequence(Filter(s, p), s)
  {
    if s != [] {
      FilterIsSubsequence(s[1..], p);
      if p(s[0]) {
        assert ([s[0]] + Filter(s[1..], p))[1..] == Filter(s[1..], p);
      } else {
        var f := Filter(s, p);
        if f != [] {
          assert f[0] in f;
        }
      }
    }
  }

  /** No element occurs twice. */
  predicate Distinct<T(==)>(s: seq<T>) {
    forall i, j :: 0 <= i < j < |s| ==> s[i] != s[j]
  }

  /** A duplicate-free input gives a duplicate-free filtered result. */
  lemma {:induction false} FilterDistinct<T>(s: seq<T>, p: T -> bool)
    requires Distinct(s)
    ensures Distinct(Filter(s, p))
  {
    if s != [] {
      assert Distinct(s[1..]) by {
        forall i, j | 0 <= i < j < |s[1..]| ensures s[1..][i] != s[1..][j] {
          assert s[1..][i] == s[i + 1] && s[1..][j] == s[j + 1];
        }
      }
      FilterDistinct(s[1..], p);
      if p(s[0]) {
        var rest := Filter(s[1..], p);
        assert s[0] !in s[1..] by {
          forall k | 0 <= k < |s[1..]| ensures s[1..][k] != s[0] {
            assert s[1..][k] == s[k + 1];
          }
        }
        assert s[0] !in rest;
        var r := [s[0]] + rest;
        forall i, j | 0 <= i < j < |r| ensures r[i] != r[j] {
          if i == 0 {
            assert r[j] == rest[j - 1];
            assert r[j] in rest;
          } else {
            assert r[i] == rest[i - 1] && r[j] == rest[j - 1];
          }
        }
      }
    }
  }

  /** The number of elements of `s` satisfying `p`. */
  function Count<T>(s: seq<T>, p: T -> bool): nat {
    if s == [] then 0 else (if p(s[0]) then 1 else 0) + Count(s[1..], p)
  }

  /** The filtered sequence has exactly one entry per satisfying element. */
  lemma {:induction false} FilterLength<T>(s: seq<T>, p: T -> bool)
    ensures |Filter(s, p)| == Count(s, p)
  {
    if s != [] {
      FilterLength(s[1..], p);
    }
  }
}

=== FILE: file_io.dfy ===
/** utils/file_io.py: the checkpoint file of processed sample-point ids, one
    id per line. File contents are strings; a missing file is `None`, and
    whether opening, reading or writing fails is a parameter. */
module FileIO {
  import opened Common

  /** The characters `str.isspace()` accepts, which `str.strip()` removes. */
  predicate IsSpace(c: char) {
    var n := c as int;
    || 9 <= n <= 13 || 28 <= n <= 32 || n == 0x85 || n == 0xA0 || n == 0x1680
    || 0x2000 <= n <= 0x200A || n == 0x2028 || n == 0x2029 || n == 0x202F || n == 0x205F || n == 0x3000
  }

  /** `str.lstrip()`: the longest suffix that does not start with whitespace. */
  function StripLeft(s: string): (r: string)
    ensures |r| <= |s| && r == s[|s| - |r|..]
    ensures r == "" || !IsSpace(r[0])
    ensures forall k :: 0 <= k < |s| - |r| ==> IsSpace(s[k])
  {
    if s != [] && IsSpace(s[0]) then StripLeft(s[1..]) else s
  }

  /** `str.rstrip()`: the longest prefix that does not end in whitespace. */
  function StripRight(s: string): (r: string)
    ensures |r| <= |s| && r == s[..|r|]
    ensures r == "" || !IsSpace(r[|r| - 1])
    ensures forall k :: |r| <= k < |s| ==> IsSpace(s[k])
  {
    if s != [] && IsSpace(s[|s| - 1]) then StripRight(s[..|s| - 1]) else s
  }

  /** `str.strip()`: drops leading and trailing whitespace. */
  function Strip(s: string): (r: string)
    ensures |r| <= |s|
    ensures r == "" || (!IsSpace(r[0]) && !IsSpace(r[|r| - 1]))
    ensures exists i :: Framed(s, r, i)
  {
    var l := StripLeft(s);
    var r := StripRight(l);
    assert r == "" || r[0] == l[0];
    var i := |s| - |l|;
    assert r == s[i..i + |r|];
    assert forall k :: i + |r| <= k < |s| ==> s[k] == l[k - i];
    assert Framed(s, r, i);
    r
  }

  /** `r` sits in `s` at offset `i` with only whitespace around it. */
  predicate Framed(s: string, r: string, i: int) {
    && 0 <= i && i + |r| <= |s| && r == s[i..i + |r|]
    && (forall k :: 0 <= k < i ==> IsSpace(s[k]))
    && (forall k :: i + |r| <= k < |s| ==> IsSpace(s[k]))
  }

  /** Text-mode reading turns `\r\n` and a lone `\r` into `\n`. */
  function Translate(s: string): string {
    if s == [] then []
    else if s[0] == '\r' then
      if |s| > 1 && s[1] == '\n' then "\n" + Translate(s[2..]) else "\n" + Translate(s[1..])
    else [s[0]] + Translate(s[1..])
  }

  /** The length of the first line of `s`, its `\n` included. */
  function LineLength(s: string): (n: nat)
    ensures s != [] ==> 0 < n <= |s|
    ensures s == [] ==> n == 0
    ensures forall k :: 0 <= k < n - 1 ==> s[k] != '\n'
    ensures n == |s| || s[n - 1] == '\n'
  {
    if s == [] then 0 else if s[0] == '\n' then 1 else 1 + LineLength(s[1..])
  }

  /** Iterating over a text file: each line keeps its `\n`; a final line
      without one is still a line; an empty file has none. */
  function Lines(s: string): seq<string>
    decreases |s|
  {
    if s == [] then [] else [s[..LineLength(s)]] + Lines(s[LineLength(s)..])
  }

  /** The text `save_progress` writes: each id followed by `\n`, in the
      order the set is iterated. */
  function Serialize(ids: seq<string>): string {
    if ids == [] then "" else ids[0] + "\n" + Serialize(ids[1..])
  }

  /** How a `save_progress` write goes: to the end; failing to open the
      file, which leaves it as it was; or failing once the first `written`
      characters reached the file, which opening for writing had emptied. */
  datatype WriteFault = Completes | OpenFails | StopsAfter(written: nat)

  /** `save_progress(processed_ids, progress_file)`: `ids` is the set in
      iteration order, `before` the file as it was. The exception of a
      failed write is swallowed. */
  function SaveProgress(ids: seq<string>, fault: WriteFault, before: Option<string>): (after: Option<string>)
    ensures fault.Completes? ==> after == Some(Serialize(ids))
    ensures fault.Completes? && (forall i :: 0 <= i < |ids| ==> Clean(ids[i])) ==>
      Lines(after.value) == seq(|ids|, i requires 0 <= i < |ids| => ids[i] + "\n")
    ensures fault.OpenFails? ==> after == before
    ensures fault.StopsAfter? ==>
      && after.Some? && after.value <= Serialize(ids)
      && |after.value| == if fault.written < |Serialize(ids)| then fault.written else |Serialize(ids)|
    ensures after == before || (after.Some? && after.value <= Serialize(ids))
  {
    match fault
    case Completes =>
      if forall i :: 0 <= i < |ids| ==> Clean(ids[i]) then
        LinesOfSerialize(ids);
        Some(Serialize(ids))
      else Some(Serialize(ids))
    case OpenFails => before
    case StopsAfter(n) =>
      var text := Serialize(ids);
      Some(text[..if n < |text| then n else |text|])
  }

  /** `load_progress(progress_file)`: the set of stripped lines; a missing
      or unreadable file gives the empty set. */
  function LoadProgress(file: Option<string>, readOk: bool): (ids: set<string>)
    ensures file.None? || !readOk ==> ids == {}
    ensures file.Some? && readOk ==> forall id :: id in ids <==> exists l :: l in Lines(Translate(file.value)) && Strip(l) == id
  {
    if file.None? || !readOk then {}
    else set l | l in Lines(Translate(file.value)) :: Strip(l)
  }

  /** An id that survives a save and load unchanged: no line break inside
      and no whitespace at either end. */
  predicate Clean(id: string) {
    && (forall k :: 0 <= k < |id| ==> id[k] != '\n' && id[k] != '\r')
    && (id == "" || (!IsSpace(id[0]) && !IsSpace(id[|id| - 1])))
  }

  lemma {:induction false} TranslateNoReturn(s: string)
    requires forall k :: 0 <= k < |s| ==> s[k] != '\r'
    ensures Translate(s) == s
  {
    if s != [] {
      TranslateNoReturn(s[1..]);
    }
  }

  lemma {:induction false} LineLengthOfLine(id: string, rest: string)
    requires forall k :: 0 <= k < |id| ==> id[k] != '\n'
    ensures LineLength(id + "\n" + rest) == |id| + 1
  {
    if id != [] {
      assert (id + "\n" + rest)[1..] == id[1..] + "\n" + rest;
      LineLengthOfLine(id[1..], rest);
    }
  }

  lemma {:induction false} SerializeNoReturn(ids: seq<string>)
    requires forall i :: 0 <= i < |ids| ==> Clean(ids[i])
    ensures forall k :: 0 <= k < |Serialize(ids)| ==> Serialize(ids)[k] != '\r'
  {
    if ids != [] {
      SerializeNoReturn(ids[1..]);
      var rest := Serialize(ids[1..]);
      var s := ids[0] + "\n" + rest;
      assert Clean(ids[0]);
      forall k | 0 <= k < |s| ensures s[k] != '\r' {
        if k < |ids[0]| {
          assert s[k] == ids[0][k];
        } else if k > |ids[0]| {
          assert s[k] == rest[k - |ids[0]| - 1];
        }
      }
    }
  }

  /** The saved text has one line per id, in order. */
  lemma {:induction false} LinesOfSerialize(ids: seq<string>)
    requires forall i :: 0 <= i < |ids| ==> Clean(ids[i])
    ensures Lines(Serialize(ids)) == seq(|ids|, i requires 0 <= i < |ids| => ids[i] + "\n")
  {
    if ids != [] {
      var rest := Serialize(ids[1..]);
      var s := ids[0] + "\n" + rest;
      assert Clean(ids[0]);
      LineLengthOfLine(ids[0], rest);
      assert s[..|ids[0]| + 1] == ids[0] + "\n";
      assert s[|ids[0]| + 1..] == rest;
      LinesOfSerialize(ids[1..]);
    }
  }

  lemma StripLine(id: string)
    requires Clean(id)
    ensures Strip(id + "\n") == id
  {
    var s := id + "\n";
    assert IsSpace('\n');
    assert s[..|s| - 1] == id;
    if id == "" {
      assert StripLeft(s) == StripLeft(s[1..]);
      assert s[1..] == "";
    } else {
      assert s[0] == id[0];
      assert StripLeft(s) == s;
      assert StripRight(s) == StripRight(id);
      assert StripRight(id) == id;
    }
  }

  /** Stripping each saved line gives back the saved ids. */
  lemma StripSavedLines(ids: seq<string>, lines: seq<string>)
    requires forall i :: 0 <= i < |ids| ==> Clean(ids[i])
    requires |lines| == |ids| && forall i :: 0 <= i < |ids| ==> lines[i] == ids[i] + "\n"
    ensures (set l | l in lines :: Strip(l)) == set i | 0 <= i < |ids| :: ids[i]
  {
    var loaded := set l | l in lines :: Strip(l);
    var saved := set i | 0 <= i < |ids| :: ids[i];
    forall id | id in loaded ensures id in saved {
      var l :| l in lines && Strip(l) == id;
      var i :| 0 <= i < |lines| && lines[i] == l;
      StripLine(ids[i]);
    }
    forall i | 0 <= i < |ids| ensures ids[i] in loaded {
      StripLine(ids[i]);
      assert lines[i] in lines;
    }
  }

  /** Round trip: loading what `save_progress` wrote gives back exactly the
      saved ids, whatever their order and repetitions, when every id is
      clean. */
  lemma ProgressRoundTrip(ids: seq<string>)
    requires forall i :: 0 <= i < |ids| ==> Clean(ids[i])
    ensures LoadProgress(Some(Serialize(ids)), true) == set i | 0 <= i < |ids| :: ids[i]
  {
    SerializeNoReturn(ids);
    TranslateNoReturn(Serialize(ids));
    LinesOfSerialize(ids);
    StripSavedLines(ids, Lines(Serialize(ids)));
  }

  lemma {:induction false} SerializeAppend(a: seq<string>, b: seq<string>)
    ensures Serialize(a + b) == Serialize(a) + Serialize(b)
  {
    if a == [] {
      assert a + b == b;
    } else {
      assert (a + b)[1..] == a[1..] + b;
      SerializeAppend(a[1..], b);
      assert a[0] + "\n" + (Serialize(a[1..]) + Serialize(b)) == (a[0] + "\n" + Serialize(a[1..])) + Serialize(b);
    }
  }

  /** A save cut off at a line boundary loses only the ids not yet written:
      loading the file gives back exactly the first `m` ids. */
  lemma InterruptedSaveKeepsWrittenIds(ids: seq<string>, m: nat, before: Option<string>)
    requires forall i :: 0 <= i < |ids| ==> Clean(ids[i])
    requires m <= |ids|
    ensures var after := SaveProgress(ids, StopsAfter(|Serialize(ids[..m])|), before);
      LoadProgress(after, true) == set i | 0 <= i < m :: ids[i]
  {
    assert ids == ids[..m] + ids[m..];
    SerializeAppend(ids[..m], ids[m..]);
    var text := Serialize(ids);
    assert text[..|Serialize(ids[..m])|] == Serialize(ids[..m]);
    ProgressRoundTrip(ids[..m]);
    assert (set i | 0 <= i < |ids[..m]| :: ids[..m][i]) == set i | 0 <= i < m :: ids[i];
  }

  /** Line order and duplicate lines do not matter: two saves of the same
      set of clean ids load identically. */
  lemma ProgressIgnoresOrder(a: seq<string>, b: seq<string>)
    requires forall i :: 0 <= i < |a| ==> Clean(a[i])
    requires forall i :: 0 <= i < |b| ==> Clean(b[i])
    requires forall x :: x in a <==> x in b
    ensures LoadProgress(Some(Serialize(a)), true) == LoadProgress(Some(Serialize(b)), true)
  {
    ProgressRoundTrip(a);
    ProgressRoundTrip(b);
    var sa := set i | 0 <= i < |a| :: a[i];
    var sb := set i | 0 <= i < |b| :: b[i];
    assert forall x :: x in sa <==> x in a;
    assert forall x :: x in sb <==> x in b;
  }
}

=== FILE: grid.dfy ===
/** The row-major tile grid shared by tile submission in core/panorama.py and
    the stitch loop in utils/image_utils.py: `for row in range(rows): for col
    in range(cols)`. */
module Grid {

  /** A grid position, the `(row, col)` key of the tile dictionary. */
  datatype Cell = Cell(row: int, col: int)

  predicate InGrid(c: Cell, rows: int, cols: int) {
    0 <= c.row < rows && 0 <= c.col < cols
  }

  /** The cells of row `r`, left to right. */
  function RowCells(r: int, cols: int): seq<Cell>
    decreases cols
  {
    if cols <= 0 then [] else RowCells(r, cols - 1) + [Cell(r, cols - 1)]
  }

  /** The cells of a `rows` by `cols` grid, top row first; `range` of a
      non-positive bound is empty. */
  function GridCells(rows: int, cols: int): seq<Cell>
    decreases rows
  {
    if rows <= 0 then [] else GridCells(rows - 1, cols) + RowCells(rows - 1, cols)
  }

  function Clamp(n: int): nat {
    if n < 0 then 0 else n
  }

  lemma {:induction false} RowCellsFacts(r: int, cols: int)
    ensures |RowCells(r, cols)| == Clamp(cols)
    ensures forall k :: 0 <= k < |RowCells(r, cols)| ==> RowCells(r, cols)[k] == Cell(r, k)
    decreases cols
  {
    if cols > 0 {
      RowCellsFacts(r, cols - 1);
    }
  }

  /** The enumeration visits `rows * cols` cells. */
  lemma {:induction false} GridCellsLength(rows: int, cols: int)
    ensures |GridCells(rows, cols)| == Clamp(rows) * Clamp(cols)
    decreases rows
  {
    if rows > 0 {
      GridCellsLength(rows - 1, cols);
      RowCellsFacts(rows - 1, cols);
      assert Clamp(rows) * Clamp(cols) == (rows - 1) * Clamp(cols) + Clamp(cols);
    }
  }

  /** Row-major position: cell `(r, c)` is visited `r * cols + c`-th. */
  lemma {:induction false} GridCellsIndex(rows: int, cols: int, c: Cell)
    requires InGrid(c, rows, cols)
    ensures 0 <= c.row * cols + c.col < |GridCells(rows, cols)|
    ensures GridCells(rows, cols)[c.row * cols + c.col] == c
    decreases rows
  {
    GridCellsLength(rows, cols);
    GridCellsLength(rows - 1, cols);
    RowCellsFacts(rows - 1, cols);
    var k := c.row * cols + c.col;
    assert k < rows * cols by {
      MulStep(c.row, rows, cols);
    }
    if c.row < rows - 1 {
      GridCellsIndex(rows - 1, cols, c);
    } else {
      assert k == (rows - 1) * cols + c.col;
    }
  }

  /** Every cell the enumeration visits lies inside the grid. */
  lemma {:induction false} GridCellsInGrid(rows: int, cols: int)
    ensures forall k :: 0 <= k < |GridCells(rows, cols)| ==> InGrid(GridCells(rows, cols)[k], rows, cols)
    decreases rows
  {
    if rows > 0 {
      GridCellsInGrid(rows - 1, cols);
      RowCellsFacts(rows - 1, cols);
      var a, b := GridCells(rows - 1, cols), RowCells(rows - 1, cols);
      forall k | 0 <= k < |a + b| ensures InGrid((a + b)[k], rows, cols) {
        if k >= |a| {
          assert (a + b)[k] == b[k - |a|];
        }
      }
    }
  }

  /** The `k`-th visited cell is row `k // cols`, column `k % cols`. */
  lemma {:induction false} GridCellsAt(rows: int, cols: int, k: int)
    requires 0 <= k < |GridCells(rows, cols)|
    ensures cols > 0 && GridCells(rows, cols)[k] == Cell(k / cols, k % cols)
    decreases rows
  {
    var a, b := GridCells(rows - 1, cols), RowCells(rows - 1, cols);
    GridCellsLength(rows - 1, cols);
    RowCellsFacts(rows - 1, cols);
    if k < |a| {
      GridCellsAt(rows - 1, cols, k);
    } else {
      assert cols > 0;
      var j := k - |a|;
      assert GridCells(rows, cols)[k] == b[j] == Cell(rows - 1, j);
      DivMod(k, cols, rows - 1, j);
    }
  }

  /** The enumeration never repeats a cell. */
  lemma GridCellsDistinct(rows: int, cols: int)
    ensures forall i, j :: 0 <= i < j < |GridCells(rows, cols)| ==> GridCells(rows, cols)[i] != GridCells(rows, cols)[j]
  {
    var g := GridCells(rows, cols);
    forall i, j | 0 <= i < j < |g| ensures g[i] != g[j] {
      GridCellsAt(rows, cols, i);
      GridCellsAt(rows, cols, j);
      assert i == (i / cols) * cols + i % cols && j == (j / cols) * cols + j % cols;
    }
  }

  /** Euclidean division: `k == q * d + r` with `0 <= r < d` determines the
      quotient and the remainder. */
  lemma DivMod(k: int, d: int, q: int, r: int)
    requires 0 < d && 0 <= r < d && k == q * d + r
    ensures k / d == q && k % d == r
  {
    var q', r' := k / d, k % d;
    assert k == q' * d + r' && 0 <= r' < d;
    if q' < q {
      MulStep(q', q, d);
      assert false;
    } else if q < q' {
      MulStep(q, q', d);
      assert false;
    }
  }

  /** A row strictly above another ends no later than the other begins:
      `a < b` implies `a * w + w <= b * w` for a non-negative width. */
  lemma MulStep(a: int, b: int, w: int)
    requires a < b && 0 <= w
    ensures a * w + w <= b * w
  {
    var d := b - a - 1;
    assert b * w == a * w + w + d * w;
    assert d * w >= 0;
  }
}

=== FILE: http_client.dfy ===
/** utils/http_client.py: the retrying GET client. The network is the oracle
    `outcome` (what attempt `k` produced) and `random.random()` the oracle
    `jitter` (the draw made before the sleep after attempt `k`); sleeping is
    recorded as an event in a trace rather than performed. */
module HttpClient {
  import opened Common

  /** The `HTTP_CONFIG` defaults from config/config.py. */
  const DefaultMaxRetries := 3
  const DefaultRetryDelay: real := 2.0
  const DefaultTimeout: real := 30.0
  const DefaultHeaders: map<string, string> := map[
    "User-Agent" := "Mozilla/5.0 (Windows NT 10.0; Win64; x64) AppleWebKit/537.36 (KHTML, like Gecko) Chrome/96.0.4664.110 Safari/537.36",
    "Referer" := "https://map.baidu.com/",
    "Accept" := "text/html,application/xhtml+xml,application/xml;q=0.9,image/webp,image/apng,*/*;q=0.8",
    "Accept-Encoding" := "gzip, deflate, br",
    "Accept-Language" := "zh-CN,zh;q=0.9,en;q=0.8"
  ]

  datatype Client = Client(maxRetries: int, retryDelay: real, timeout: real, headers: map<string, string>)

  /** `HttpClient(max_retries, retry_delay, timeout, headers)`: each argument
      goes through `arg or default`, so `None`, `0`, `0.0` and `{}` all fall
      back to the configured default. */
  function NewClient(maxRetries: Option<int>, retryDelay: Option<real>, timeout: Option<real>,
                     headers: Option<map<string, string>>): (c: Client)
    ensures c.maxRetries != 0 && c.retryDelay != 0.0 && c.timeout != 0.0 && c.headers != map[]
    ensures c.maxRetries == if maxRetries.Some? && maxRetries.value != 0 then maxRetries.value else DefaultMaxRetries
    ensures c.retryDelay == if retryDelay.Some? && retryDelay.value != 0.0 then retryDelay.value else DefaultRetryDelay
    ensures c.timeout == if timeout.Some? && timeout.value != 0.0 then timeout.value else DefaultTimeout
    ensures c.headers == if headers.Some? && headers.value != map[] then headers.value else DefaultHeaders
  {
    assert "Referer" in DefaultHeaders;
    Client(
      if maxRetries.Some? && maxRetries.value != 0 then maxRetries.value else DefaultMaxRetries,
      if retryDelay.Some? && retryDelay.value != 0.0 then retryDelay.value else DefaultRetryDelay,
      if timeout.Some? && timeout.value != 0.0 then timeout.value else DefaultTimeout,
      if headers.Some? && headers.value != map[] then headers.value else DefaultHeaders)
  }

  /** Defaulting is idempotent: rebuilding a client from its own settings
      gives the same client. */
  lemma NewClientIdempotent(maxRetries: Option<int>, retryDelay: Option<real>, timeout: Option<real>,
                            headers: Option<map<string, string>>)
    ensures var c := NewClient(maxRetries, retryDelay, timeout, headers);
      NewClient(Some(c.maxRetries), Some(c.retryDelay), Some(c.timeout), Some(c.headers)) == c
  {
  }

  /** The module-level `http_client = HttpClient()`. */
  function SharedClient(): (c: Client)
    ensures c.maxRetries == 3 && c.retryDelay == 2.0 && c.timeout == 30.0 && c.headers == DefaultHeaders
  {
    NewClient(None, None, None, None)
  }

  /** The headers of one request: per-call headers override client headers
      of the same name; every other client header is kept. */
  function MergeHeaders(c: Client, perCall: Option<map<string, string>>): (h: map<string, string>)
    ensures forall k :: k in h <==> k in c.headers || (perCall.Some? && k in perCall.value)
    ensures forall k :: k in h ==> h[k] == if perCall.Some? && k in perCall.value then perCall.value[k] else c.headers[k]
  {
    if perCall.Some? && perCall.value != map[] then c.headers + perCall.value else c.headers
  }

  /** What one attempt produced: a response with a status code, or one of the
      `requests` exceptions the loop catches. */
  datatype Attempt = Status(code: int) | ConnectionError | Timeout | RequestError

  /** A trace event: attempt number `attempt` was made, or the client slept. */
  datatype Event = Try(attempt: nat) | Sleep(seconds: real)

  /** The response of attempt `attempt`; `RequestException` after the last
      attempt failed; or the `ValueError` `time.sleep` raises, outside the
      `try`, when the sleep after failed attempt `attempt` is negative. */
  datatype GetOutcome = Response(attempt: nat) | Exhausted | NegativeSleep(attempt: nat)

  /** The number of attempts `while retry_count <= max_retries` allows. */
  function Budget(c: Client): nat {
    if c.maxRetries < 0 then 0 else c.maxRetries + 1
  }

  /** The sleep after attempt `k`: `retry_delay * (1 + random.random())`. */
  function SleepTime(c: Client, jitter: nat -> real, k: nat): real {
    c.retryDelay * (1.0 + jitter(k))
  }

  /** Attempts and sleeps alternate, starting with attempt 0; the sleep after
      attempt `k` lasts `SleepTime(c, jitter, k)`. */
  predicate Alternates(trace: seq<Event>, c: Client, jitter: nat -> real) {
    forall i :: 0 <= i < |trace| ==>
      trace[i] == if i % 2 == 0 then Try(i / 2) else Sleep(SleepTime(c, jitter, i / 2))
  }

  /** None of the first `n` attempts got a 200 response. */
  predicate NoSuccessBefore(outcome: nat -> Attempt, n: int) {
    forall k :: 0 <= k < n ==> outcome(k) != Status(200)
  }

  /** The sleeps after the first `n` attempts are all accepted by `time.sleep`. */
  predicate SleepsValidBefore(c: Client, jitter: nat -> real, n: int) {
    forall k :: 0 <= k < n ==> SleepTime(c, jitter, k) >= 0.0
  }

  /** `HttpClient.get`: retry until a 200 response or the budget is spent. */
  method Get(c: Client, outcome: nat -> Attempt, jitter: nat -> real) returns (res: GetOutcome, trace: seq<Event>)
    ensures Alternates(trace, c, jitter)
    ensures res.Response? ==>
      && res.attempt < Budget(c)
      && outcome(res.attempt) == Status(200)
      && NoSuccessBefore(outcome, res.attempt)
      && SleepsValidBefore(c, jitter, res.attempt)
      && |trace| == 2 * res.attempt + 1
    ensures res.NegativeSleep? ==>
      && res.attempt + 1 < Budget(c)
      && NoSuccessBefore(outcome, res.attempt + 1)
      && SleepsValidBefore(c, jitter, res.attempt)
      && SleepTime(c, jitter, res.attempt) < 0.0
      && |trace| == 2 * res.attempt + 1
    ensures res.Exhausted? ==>
      && NoSuccessBefore(outcome, Budget(c))
      && SleepsValidBefore(c, jitter, Budget(c) - 1)
      && |trace| == if Budget(c) == 0 then 0 else 2 * Budget(c) - 1
  {
    var retryCount := 0;
    trace := [];
    while retryCount <= c.maxRetries
      invariant 0 <= retryCount <= Budget(c)
      invariant NoSuccessBefore(outcome, retryCount)
      invariant SleepsValidBefore(c, jitter, if retryCount <= c.maxRetries then retryCount else retryCount - 1)
      invariant Alternates(trace, c, jitter)
      invariant |trace| == if retryCount == 0 then 0 else if retryCount <= c.maxRetries then 2 * retryCount else 2 * retryCount - 1
      decreases c.maxRetries - retryCount
    {
      trace := trace + [Try(retryCount)];
      if outcome(retryCount) == Status(200) {
        return Response(retryCount), trace;
      }
      retryCount := retryCount + 1;
      if retryCount <= c.maxRetries {
        var sleepTime := SleepTime(c, jitter, retryCount - 1);
        if sleepTime < 0.0 {
          return NegativeSleep(retryCount - 1), trace;
        }
        trace := trace + [Sleep(sleepTime)];
      }
    }
    res := Exhausted;
  }

  predicate IsTry(e: Event) {
    e.Try?
  }

  predicate IsSleep(e: Event) {
    e.Sleep?
  }

  lemma {:induction false} CountAppend<T>(s: seq<T>, x: T, p: T -> bool)
    ensures Count(s + [x], p) == Count(s, p) + (if p(x) then 1 else 0)
  {
    if s != [] {
      assert (s + [x])[1..] == s[1..] + [x];
      CountAppend(s[1..], x, p);
    }
  }

  /** Every prefix of an alternating trace alternates. */
  lemma AlternatesPrefix(trace: seq<Event>, c: Client, jitter: nat -> real, m: nat)
    requires Alternates(trace, c, jitter) && m <= |trace|
    ensures Alternates(trace[..m], c, jitter)
  {
    forall i | 0 <= i < m ensures trace[..m][i] == trace[i] {}
  }

  /** An alternating trace of `n` attempts holds `n - 1` sleeps, and its last
      event is an attempt: nothing sleeps after the final try. */
  lemma {:induction false} AlternatingCounts(trace: seq<Event>, c: Client, jitter: nat -> real, n: nat)
    requires Alternates(trace, c, jitter) && n > 0 && |trace| == 2 * n - 1
    ensures Count(trace, IsTry) == n && Count(trace, IsSleep) == n - 1
    ensures trace[|trace| - 1] == Try(n - 1)
  {
    if n > 1 {
      var shorter := trace[..2 * n - 3];
      AlternatesPrefix(trace, c, jitter, 2 * n - 3);
      AlternatingCounts(shorter, c, jitter, n - 1);
      var sleep, last := trace[2 * n - 3], trace[2 * n - 2];
      assert (2 * n - 3) % 2 == 1 && (2 * n - 2) % 2 == 0 && (2 * n - 2) / 2 == n - 1;
      assert sleep.Sleep? && last == Try(n - 1);
      assert trace == shorter + [sleep] + [last];
      CountAppend(shorter, trace[2 * n - 3], IsTry);
      CountAppend(shorter + [trace[2 * n - 3]], trace[2 * n - 2], IsTry);
      CountAppend(shorter, trace[2 * n - 3], IsSleep);
      CountAppend(shorter + [trace[2 * n - 3]], trace[2 * n - 2], IsSleep);
    } else {
      assert trace == [trace[0]];
    }
  }

  /** With `random.random()` in [0, 1), every sleep lasts at least
      `retry_delay` and less than twice that. */
  lemma SleepsBounded(trace: seq<Event>, c: Client, jitter: nat -> real)
    requires Alternates(trace, c, jitter) && c.retryDelay > 0.0
    requires forall k :: 0.0 <= jitter(k) < 1.0
    ensures forall i :: 0 <= i < |trace| && trace[i].Sleep? ==>
      c.retryDelay <= trace[i].seconds < 2.0 * c.retryDelay
  {
    forall i | 0 <= i < |trace| && trace[i].Sleep?
      ensures c.retryDelay <= trace[i].seconds < 2.0 * c.retryDelay
    {
      var j := jitter(i / 2);
      assert trace[i].seconds == c.retryDelay + c.retryDelay * j;
      assert 0.0 <= c.retryDelay * j < c.retryDelay * 1.0;
    }
  }

  /** Marks a JSONP body. */
  const JsonpMarker := "/**/jsonp."

  predicate StartsWith(s: string, prefix: string) {
    |prefix| <= |s| && s[..|prefix|] == prefix
  }

  /** `str.find(ch)`: the first index of `ch`, or -1. */
  function Find(s: string, ch: char): (i: int)
    ensures -1 <= i < |s|
    ensures i >= 0 ==> s[i] == ch && forall k :: 0 <= k < i ==> s[k] != ch
    ensures i == -1 ==> forall k :: 0 <= k < |s| ==> s[k] != ch
  {
    if s == [] then -1
    else if s[0] == ch then 0
    else
      var i := Find(s[1..], ch);
      if i < 0 then -1 else i + 1
  }

  /** `str.rfind(ch)`: the last index of `ch`, or -1. */
  function RFind(s: string, ch: char): (i: int)
    ensures -1 <= i < |s|
    ensures i >= 0 ==> s[i] == ch && forall k :: i < k < |s| ==> s[k] != ch
    ensures i == -1 ==> forall k :: 0 <= k < |s| ==> s[k] != ch
  {
    if s == [] then -1
    else if s[|s| - 1] == ch then |s| - 1
    else RFind(s[..|s| - 1], ch)
  }

  /** A Python slice bound: negative counts from the end, then clamped. */
  function SliceBound(i: int, n: nat): (b: nat)
    ensures b <= n
  {
    if i < 0 then (if i + n < 0 then 0 else i + n) else if i > n then n else i
  }

  /** Python's `s[i:j]`. */
  function PySlice(s: string, i: int, j: int): (r: string)
    ensures |r| <= |s|
  {
    var lo, hi := SliceBound(i, |s|), SliceBound(j, |s|);
    if lo >= hi then "" else s[lo..hi]
  }

  /** `content[content.find('(') + 1:content.rfind(')')]`. */
  function JsonpPayload(s: string): string {
    PySlice(s, Find(s, '(') + 1, RFind(s, ')'))
  }

  /** A JSONP body as a server writes it: the marker, the callback name, and
      the payload in parentheses. */
  function JsonpWrap(callback: string, payload: string): string {
    JsonpMarker + callback + "(" + payload + ")"
  }

  /** Unwrapping recovers the payload of a JSONP body, whatever parentheses
      the payload itself contains, as long as the callback name has none. */
  lemma JsonpRoundTrip(callback: string, payload: string)
    requires forall k :: 0 <= k < |callback| ==> callback[k] != '('
    ensures StartsWith(JsonpWrap(callback, payload), JsonpMarker)
    ensures JsonpPayload(JsonpWrap(callback, payload)) == payload
  {
    var s := JsonpWrap(callback, payload);
    var open := |JsonpMarker| + |callback|;
    assert s[..|JsonpMarker|] == JsonpMarker;
    assert s[open] == '(';
    assert forall k :: 0 <= k < open ==> s[k] != '(' by {
      forall k | 0 <= k < open ensures s[k] != '(' {
        if k < |JsonpMarker| {
          assert s[k] == JsonpMarker[k];
        } else {
          assert s[k] == callback[k - |JsonpMarker|];
        }
      }
    }
    assert Find(s, '(') == open;
    assert RFind(s, ')') == |s| - 1;
    assert s[open + 1..|s| - 1] == payload;
  }

  /** With no closing parenthesis, `rfind` gives -1 and the slice stops one
      character short of the end, dropping the last payload character. */
  lemma JsonpWithoutCloser(callback: string, payload: string)
    requires forall k :: 0 <= k < |callback| ==> callback[k] != '(' && callback[k] != ')'
    requires forall k :: 0 <= k < |payload| ==> payload[k] != ')'
    requires |payload| > 0
    ensures JsonpPayload(JsonpMarker + callback + "(" + payload) == payload[..|payload| - 1]
  {
    var s := JsonpMarker + callback + "(" + payload;
    var open := |JsonpMarker| + |callback|;
    assert s[open] == '(';
    assert forall k :: 0 <= k < open ==> s[k] != '(' by {
      forall k | 0 <= k < open ensures s[k] != '(' {
        if k < |JsonpMarker| {
          assert s[k] == JsonpMarker[k];
        } else {
          assert s[k] == callback[k - |JsonpMarker|];
        }
      }
    }
    assert Find(s, '(') == open;
    assert forall k :: 0 <= k < |s| ==> s[k] != ')' by {
      forall k | 0 <= k < |s| ensures s[k] != ')' {
        if k < |JsonpMarker| {
          assert s[k] == JsonpMarker[k];
        } else if k < open {
          assert s[k] == callback[k - |JsonpMarker|];
        } else if k > open {
          assert s[k] == payload[k - open - 1];
        } else {
          assert s[k] == '(';
        }
      }
    }
    assert RFind(s, ')') == -1;
    assert s[open + 1..|s| - 1] == payload[..|payload| - 1];
  }

  /** The result of `get_json`: the parsed value, a JSON decoding error
      (raised to the caller), the `RequestException` of `get`, or the
      `ValueError` of a negative sleep inside `get`. */
  datatype JsonResult<J> = Parsed(value: J) | DecodeError | RequestFailed | SleepError

  /** Decoding a response body: a JSONP body is parsed from its payload,
      anything else as a whole; a parse failure raises in both cases.
      `parse` is the JSON parser. */
  function DecodeBody<J>(text: string, parse: string -> Option<J>): (r: JsonResult<J>)
    ensures !r.RequestFailed? && !r.SleepError?
    ensures r.Parsed? <==> parse(if StartsWith(text, JsonpMarker) then JsonpPayload(text) else text).Some?
    ensures r.Parsed? ==> r.value == parse(if StartsWith(text, JsonpMarker) then JsonpPayload(text) else text).value
  {
    var source := if StartsWith(text, JsonpMarker) then JsonpPayload(text) else text;
    match parse(source)
    case Some(v) => Parsed(v)
    case None => DecodeError
  }

  /** A JSONP body decodes to exactly what its payload parses to, the
      callback name and the wrapper playing no part. */
  lemma DecodeJsonpBody<J>(callback: string, payload: string, parse: string -> Option<J>)
    requires forall k :: 0 <= k < |callback| ==> callback[k] != '('
    ensures DecodeBody(JsonpWrap(callback, payload), parse) ==
      if parse(payload).Some? then Parsed(parse(payload).value) else DecodeError
  {
    JsonpRoundTrip(callback, payload);
  }

  /** `HttpClient.get_json`; `body(k)` is the text of attempt `k`'s response. */
  method GetJson<J>(c: Client, outcome: nat -> Attempt, jitter: nat -> real, body: nat -> string,
                    parse: string -> Option<J>) returns (r: JsonResult<J>)
    ensures r.RequestFailed? <==> NoSuccessBefore(outcome, Budget(c)) && SleepsValidBefore(c, jitter, Budget(c) - 1)
    ensures r.SleepError? ==> exists k ::
      && 0 <= k && k + 1 < Budget(c) && NoSuccessBefore(outcome, k + 1)
      && SleepsValidBefore(c, jitter, k) && SleepTime(c, jitter, k) < 0.0
    ensures !r.RequestFailed? && !r.SleepError? ==> exists k ::
      && 0 <= k < Budget(c) && outcome(k) == Status(200)
      && NoSuccessBefore(outcome, k) && SleepsValidBefore(c, jitter, k)
      && r == DecodeBody(body(k), parse)
  {
    var res, trace := Get(c, outcome, jitter);
    match res
    case Exhausted =>
      r := RequestFailed;
    case NegativeSleep(k) =>
      assert !SleepsValidBefore(c, jitter, Budget(c) - 1) by {
        assert SleepTime(c, jitter, k) < 0.0;
      }
      r := SleepError;
    case Response(k) =>
      assert !NoSuccessBefore(outcome, Budget(c)) by {
        assert outcome(k) == Status(200);
      }
      r := DecodeBody(body(k), parse);
  }

  /** With a non-negative delay and `random.random()` draws in [0, 1), no
      sleep is ever rejected, so `get` only ends in a response or in
      exhaustion. */
  lemma NonNegativeDelaySleepsValid(c: Client, jitter: nat -> real, n: int)
    requires c.retryDelay >= 0.0
    requires forall k :: 0.0 <= jitter(k) < 1.0
    ensures SleepsValidBefore(c, jitter, n)
  {
    forall k | 0 <= k < n ensures SleepTime(c, jitter, k) >= 0.0 {
      SleepValidity(c, jitter, k);
    }
  }

  /** The sleep after an attempt is accepted exactly when the client's delay
      is non-negative, for a `random.random()` draw in [0, 1). A negative
      `retry_delay`, which `NewClient` keeps since it is truthy, therefore
      makes the first retry raise. */
  lemma SleepValidity(c: Client, jitter: nat -> real, k: nat)
    requires 0.0 <= jitter(k) < 1.0
    ensures SleepTime(c, jitter, k) >= 0.0 <==> c.retryDelay >= 0.0
  {
    var f := 1.0 + jitter(k);
    assert f >= 1.0;
    if c.retryDelay < 0.0 {
      assert c.retryDelay * f <= c.retryDelay * 1.0;
    }
  }
}

=== FILE: image_utils.dfy ===
/** The layout logic of `stitch_tiles` in utils/image_utils.py: which picture
    goes into each grid cell, how large the canvas is, and where each picture
    is pasted. Pixels are not modelled, only sizes and fill colours. */
module ImageUtils {
  import opened Common
  import opened Grid

  /** Pixel dimensions of a decoded image. */
  datatype Size = Size(width: nat, height: nat)

  datatype Colour = Colour(red: nat, green: nat, blue: nat)

  /** The fill of a blank stand-in tile. */
  const White := Colour(255, 255, 255)

  /** A picture placed in the grid: a decoded download, or a blank filler. */
  datatype Tile = Downloaded(size: Size) | Blank(size: Size, fill: Colour)

  /** The tile dictionary handed to the stitcher: its keys in insertion
      (iteration) order, and for each tile the size its bytes decode to,
      `None` when `Image.open` cannot decode them. */
  datatype Tiles = Tiles(order: seq<Cell>, size: map<Cell, Option<Size>>) {
    predicate WellFormed() {
      && (forall k :: 0 <= k < |order| ==> order[k] in size)
      && (forall c :: c in size ==> c in order)
    }
  }

  /** One `paste` call: the picture for `cell`, at offset `(x, y)`. */
  datatype Placement = Placement(cell: Cell, tile: Tile, x: int, y: int)

  /** The stitched image: its canvas size and the pastes, in call order. */
  datatype Stitched = Stitched(canvas: Size, placements: seq<Placement>)

  /** `IndexOutOfRange`: `pil_tiles[0][0]` on an empty grid;
      `NoExampleTile`: `next(iter(tiles.values()))` on an empty dictionary;
      `UndecodableTile`: `Image.open` on bytes that are not an image. */
  datatype StitchError = IndexOutOfRange | NoExampleTile | UndecodableTile

  /** The image the loop opens for cell `c` decodes: the cell's own tile when
      its key is present, otherwise the first tile of the dictionary. */
  predicate TileDecodes(tiles: Tiles, c: Cell) {
    if c in tiles.size then tiles.size[c].Some?
    else |tiles.order| > 0 && tiles.order[0] in tiles.size && tiles.size[tiles.order[0]].Some?
  }

  /** Every image the row-major loop opens decodes. */
  predicate AllDecode(tiles: Tiles, rows: int, cols: int) {
    forall k :: 0 <= k < |GridCells(rows, cols)| ==> TileDecodes(tiles, GridCells(rows, cols)[k])
  }

  /** The picture for cell `c`: the downloaded tile when its key is present,
      otherwise a white blank sized like the first tile of the dictionary. */
  function TileAt(tiles: Tiles, c: Cell): Tile
    requires TileDecodes(tiles, c)
  {
    if c in tiles.size then Downloaded(tiles.size[c].value) else Blank(tiles.size[tiles.order[0]].value, White)
  }

  function Stitch(tiles: Tiles, rows: int, cols: int): Stitched
    requires rows > 0 && cols > 0 && AllDecode(tiles, rows, cols)
  {
    GridCellsLength(rows, cols);
    GridCellsIndex(rows, cols, Cell(0, 0));
    var origin := TileAt(tiles, Cell(0, 0));
    var w, h := origin.size.width, origin.size.height;
    var cells := GridCells(rows, cols);
    Stitched(Size(Clamp(cols) * w, Clamp(rows) * h),
             seq(|cells|, k requires 0 <= k < |cells| =>
               Placement(cells[k], TileAt(tiles, cells[k]), cells[k].col * w, cells[k].row * h)))
  }

  /** `stitch_tiles(tiles, rows, cols)`. */
  function StitchTiles(tiles: Tiles, rows: int, cols: int): (r: Result<Stitched, StitchError>)
    requires tiles.WellFormed()
    ensures r.Failure? <==> rows <= 0 || cols <= 0 || tiles.size == map[] || !AllDecode(tiles, rows, cols)
    ensures r.Failure? ==> r.error == if rows <= 0 || cols <= 0 then IndexOutOfRange
                                      else if tiles.size == map[] then NoExampleTile
                                      else UndecodableTile
    ensures r.Success? ==>
      var s := r.value;
      && |s.placements| == |GridCells(rows, cols)| == rows * cols
      && s.placements[0].cell == Cell(0, 0)
      && var w, h := s.placements[0].tile.size.width, s.placements[0].tile.size.height;
      && s.canvas.width == cols * w && s.canvas.height == rows * h
      && forall k :: 0 <= k < |s.placements| ==>
           var p := s.placements[k];
           && p.cell == GridCells(rows, cols)[k]
           && p.x == p.cell.col * w && p.y == p.cell.row * h
           && p.tile == if p.cell in tiles.size then Downloaded(tiles.size[p.cell].value)
                        else Blank(tiles.size[tiles.order[0]].value, White)
  {
    if rows <= 0 || cols <= 0 then Failure(IndexOutOfRange)
    else if tiles.size == map[] then Failure(NoExampleTile)
    else if !AllDecode(tiles, rows, cols) then Failure(UndecodableTile)
    else
      StitchLayout(tiles, rows, cols);
      Success(Stitch(tiles, rows, cols))
  }

  /** The layout `Stitch` produces: one placement per grid cell, in
      row-major order, each at its cell's offset in tiles the size of the
      one at `(0, 0)`. */
  lemma StitchLayout(tiles: Tiles, rows: int, cols: int)
    requires rows > 0 && cols > 0 && AllDecode(tiles, rows, cols)
    ensures var s := Stitch(tiles, rows, cols);
      && |s.placements| == |GridCells(rows, cols)| == rows * cols
      && s.placements[0].cell == Cell(0, 0)
      && var w, h := s.placements[0].tile.size.width, s.placements[0].tile.size.height;
      && s.canvas.width == cols * w && s.canvas.height == rows * h
      && forall k :: 0 <= k < |s.placements| ==>
           && s.placements[k].cell == GridCells(rows, cols)[k]
           && TileDecodes(tiles, s.placements[k].cell)
           && s.placements[k].x == s.placements[k].cell.col * w
           && s.placements[k].y == s.placements[k].cell.row * h
           && s.placements[k].tile == TileAt(tiles, s.placements[k].cell)
  {
    GridCellsLength(rows, cols);
    GridCellsIndex(rows, cols, Cell(0, 0));
    assert GridCells(rows, cols)[0] == Cell(0, 0);
  }

  /** A grid cell whose own downloaded bytes do not decode makes the whole
      stitch fail, whatever the other tiles are. */
  lemma UndecodableTileFails(tiles: Tiles, rows: int, cols: int, c: Cell)
    requires tiles.WellFormed() && InGrid(c, rows, cols)
    requires c in tiles.size && tiles.size[c].None?
    ensures StitchTiles(tiles, rows, cols) == Failure(UndecodableTile)
  {
    GridCellsIndex(rows, cols, c);
    assert !TileDecodes(tiles, GridCells(rows, cols)[c.row * cols + c.col]);
  }

  /** Pixel `(x, y)` lies inside the rectangle pasted by `p`. */
  predicate Covers(p: Placement, x: int, y: int) {
    p.x <= x < p.x + p.tile.size.width && p.y <= y < p.y + p.tile.size.height
  }

  /** Every downloaded tile decodes to `w` by `h`. */
  predicate Uniform(tiles: Tiles, w: nat, h: nat) {
    forall c :: c in tiles.size ==> tiles.size[c] == Some(Size(w, h))
  }

  /** Every grid cell receives exactly one paste, and nothing outside the
      grid is pasted. */
  lemma StitchEveryCellOnce(tiles: Tiles, rows: int, cols: int, c: Cell)
    requires tiles.WellFormed()
    requires StitchTiles(tiles, rows, cols).Success?
    ensures var ps := StitchTiles(tiles, rows, cols).value.placements;
      && (InGrid(c, rows, cols) <==> exists k :: 0 <= k < |ps| && ps[k].cell == c)
      && forall i, j :: 0 <= i < j < |ps| ==> ps[i].cell != ps[j].cell
  {
    var ps := StitchTiles(tiles, rows, cols).value.placements;
    GridCellsDistinct(rows, cols);
    GridCellsInGrid(rows, cols);
    if InGrid(c, rows, cols) {
      GridCellsIndex(rows, cols, c);
      assert ps[c.row * cols + c.col].cell == c;
    }
  }

  /** Pixel `(x, y)` lies on the canvas of `s`. */
  predicate OnCanvas(s: Stitched, x: int, y: int) {
    0 <= x < s.canvas.width && 0 <= y < s.canvas.height
  }

  /** With uniform tiles, every paste and the canvas are measured in `w` by
      `h` tiles. */
  lemma StitchUniform(tiles: Tiles, rows: int, cols: int, w: nat, h: nat)
    requires tiles.WellFormed() && Uniform(tiles, w, h)
    requires StitchTiles(tiles, rows, cols).Success?
    ensures var s := StitchTiles(tiles, rows, cols).value;
      && s.canvas == Size(cols * w, rows * h)
      && |s.placements| == |GridCells(rows, cols)|
      && forall k :: 0 <= k < |s.placements| ==>
           && s.placements[k].tile.size == Size(w, h)
           && s.placements[k].cell == GridCells(rows, cols)[k]
           && s.placements[k].x == s.placements[k].cell.col * w
           && s.placements[k].y == s.placements[k].cell.row * h
  {
    assert tiles.order[0] in tiles.size;
  }

  /** With uniform tiles, no canvas pixel is pasted twice. */
  lemma StitchDisjoint(tiles: Tiles, rows: int, cols: int, w: nat, h: nat)
    requires tiles.WellFormed() && Uniform(tiles, w, h)
    requires StitchTiles(tiles, rows, cols).Success?
    ensures var ps := StitchTiles(tiles, rows, cols).value.placements;
      forall i, j, x, y :: 0 <= i < j < |ps| && Covers(ps[i], x, y) ==> !Covers(ps[j], x, y)
  {
    var ps := StitchTiles(tiles, rows, cols).value.placements;
    StitchUniform(tiles, rows, cols, w, h);
    GridCellsDistinct(rows, cols);
    forall i, j, x, y | 0 <= i < j < |ps| && Covers(ps[i], x, y) ensures !Covers(ps[j], x, y) {
      var a, b := ps[i].cell, ps[j].cell;
      assert a != b;
      if Covers(ps[j], x, y) {
        SameSlot(a.col, b.col, w, x);
        SameSlot(a.row, b.row, h, y);
        assert false;
      }
    }
  }

  /** With uniform tiles, every pasted pixel lies on the canvas. */
  lemma StitchInside(tiles: Tiles, rows: int, cols: int, w: nat, h: nat)
    requires tiles.WellFormed() && Uniform(tiles, w, h)
    requires StitchTiles(tiles, rows, cols).Success?
    ensures var s := StitchTiles(tiles, rows, cols).value;
      forall k, x, y :: 0 <= k < |s.placements| && Covers(s.placements[k], x, y) ==> OnCanvas(s, x, y)
  {
    var s := StitchTiles(tiles, rows, cols).value;
    var ps := s.placements;
    StitchUniform(tiles, rows, cols, w, h);
    GridCellsInGrid(rows, cols);
    forall k, x, y | 0 <= k < |ps| && Covers(ps[k], x, y) ensures OnCanvas(s, x, y) {
      var c := ps[k].cell;
      assert InGrid(c, rows, cols);
      assert ps[k].x == c.col * w && ps[k].y == c.row * h && ps[k].tile.size == Size(w, h);
      MulStep(-1, c.col, w);
      MulStep(-1, c.row, h);
      MulStep(c.col, cols, w);
      MulStep(c.row, rows, h);
    }
  }

  /** With uniform tiles, every canvas pixel is pasted. */
  lemma StitchCovers(tiles: Tiles, rows: int, cols: int, w: nat, h: nat)
    requires tiles.WellFormed() && Uniform(tiles, w, h)
    requires StitchTiles(tiles, rows, cols).Success?
    ensures var s := StitchTiles(tiles, rows, cols).value;
      forall x, y :: OnCanvas(s, x, y) ==> exists k :: 0 <= k < |s.placements| && Covers(s.placements[k], x, y)
  {
    var s := StitchTiles(tiles, rows, cols).value;
    var ps := s.placements;
    StitchUniform(tiles, rows, cols, w, h);
    forall x, y | OnCanvas(s, x, y) ensures exists k :: 0 <= k < |ps| && Covers(ps[k], x, y) {
      var col := Slot(x, cols, w);
      var row := Slot(y, rows, h);
      var c := Cell(row, col);
      GridCellsIndex(rows, cols, c);
      var k := row * cols + col;
      assert ps[k].cell == c;
      assert Covers(ps[k], x, y);
    }
  }

  /** Two slots of width `w` that share a coordinate are the same slot. */
  lemma SameSlot(a: int, b: int, w: int, x: int)
    requires 0 <= w
    requires a * w <= x < a * w + w && b * w <= x < b * w + w
    ensures a == b
  {
    if a < b {
      MulStep(a, b, w);
    } else if b < a {
      MulStep(b, a, w);
    }
  }

  /** The slot of width `w` among `n` that holds coordinate `x`. */
  lemma Slot(x: int, n: int, w: int) returns (i: int)
    requires 0 <= x < n * w && 0 <= w
    ensures 0 <= i < n && i * w <= x < i * w + w
  {
    if n <= 0 {
      MulNonPos(n, w);
      assert false;
    }
    assert w != 0;
    i := x / w;
    assert i * w <= x < i * w + w;
    if i >= n {
      if n < i { MulStep(n, i, w); }
      assert false;
    }
  }

  lemma MulNonPos(n: int, w: int)
    requires n <= 0 && 0 <= w
    ensures n * w <= 0
  {
    if n < 0 {
      MulStep(n, 0, w);
    }
  }
}

=== FILE: meta_data.dfy ===
/** core/meta_data.py: turning a map coordinate into a panorama id, and a
    panorama id into its metadata, optionally redirected once to the capture
    of a requested year. Both endpoints are oracles: `lookup` for the
    coordinate query and `meta` for the metadata query. */
module MetaData {
  import opened Common

  /** The reply to the coordinate query. `IdFailed` covers every exception
      the call can raise (retries exhausted, undecodable JSON, a `content`
      that is not a mapping); `id` is `content.id`, `None` when absent. */
  datatype IdReply = IdFailed | IdReply(id: Option<string>)

  /** What one `get_panorama_id` call did: the coordinates it queried (at
      most one pair) and the id it returned. */
  datatype IdLookup = IdLookup(queried: seq<(real, real)>, id: Option<string>)

  /** `get_panorama_id(bd_x, bd_y)`. */
  function GetPanoramaId(x: Option<real>, y: Option<real>, lookup: (real, real) -> IdReply): (r: IdLookup)
    ensures x.None? || y.None? ==> r == IdLookup([], None)
    ensures x.Some? && y.Some? ==> r.queried == [(x.value, y.value)]
    ensures r.id.Some? <==> x.Some? && y.Some? && lookup(x.value, y.value).IdReply? && Present(lookup(x.value, y.value).id)
    ensures r.id.Some? ==> Present(r.id) && r.id == lookup(x.value, y.value).id
  {
    if x.None? || y.None? then IdLookup([], None)
    else
      var reply := lookup(x.value, y.value);
      var id := if reply.IdReply? && Present(reply.id) then reply.id else None;
      IdLookup([(x.value, y.value)], id)
  }

  /** One `TimeLine` item: its `Year` and `ID`, each possibly absent. */
  datatype TimelineEntry = TimelineEntry(year: Option<string>, id: Option<string>)

  /** The `TimeLine` key of a content dictionary: absent, present with a
      JSON `null`, or a list of items. */
  datatype TimelineValue = NoTimeline | NullTimeline | Timeline(items: seq<TimelineEntry>)

  /** The first element of the reply's `content` list: its `MoveDir`, its
      `TimeLine`, and how many other keys it has. */
  datatype Content = Content(moveDir: Option<real>, timeline: TimelineValue, otherKeys: nat) {
    /** Python truthiness of the dictionary: it has at least one key. */
    predicate NonEmpty() {
      moveDir.Some? || !timeline.NoTimeline? || otherKeys > 0
    }

    /** `content.get('TimeLine', [])`, for a timeline that can be iterated. */
    function Entries(): seq<TimelineEntry> {
      if timeline.Timeline? then timeline.items else []
    }
  }

  /** The reply to the metadata query. `MetaFailed` covers every exception
      the call can raise; `content` is the reply's `content` list, empty when
      the reply, the key or the list is empty or missing. */
  datatype MetaReply = MetaFailed | MetaReply(content: seq<Content>)

  /** A resolved panorama: `(id, move_dir, content)`. */
  datatype Resolved = Resolved(id: string, moveDir: Option<real>, content: Content)

  /** The first timeline entry whose `Year` is `year`, if any. */
  function FirstYearMatch(timeline: seq<TimelineEntry>, year: string): (r: Option<nat>)
    ensures r.Some? ==> r.value < |timeline| && timeline[r.value].year == Some(year)
    ensures r.Some? ==> forall k :: 0 <= k < r.value ==> timeline[k].year != Some(year)
    ensures r.None? ==> forall k :: 0 <= k < |timeline| ==> timeline[k].year != Some(year)
  {
    if timeline == [] then None
    else if timeline[0].year == Some(year) then Some(0)
    else match FirstYearMatch(timeline[1..], year)
      case None => None
      case Some(k) => Some(k + 1)
  }

  /** The outcome of reading one metadata reply: resolved, failed, or
      redirected to the id recorded for the requested year. */
  datatype Step = Resolve(resolved: Resolved) | Fail | Redirect(to: string)

  /** The decision `get_panorama_metadata` makes on the reply for `id`. */
  function Decide(id: string, year: Option<string>, reply: MetaReply): (s: Step)
    ensures reply.MetaFailed? || |reply.content| == 0 ==> s == Fail
    ensures Present(year) && reply.MetaReply? && |reply.content| > 0 && reply.content[0].timeline.NullTimeline? ==>
      s == Fail
    ensures !Present(year) ==> !s.Redirect?
    ensures s.Redirect? ==> s.to != "" && s.to != id
    ensures s.Resolve? ==> s.resolved.id == id && reply.MetaReply? && |reply.content| > 0 && s.resolved.content == reply.content[0]
  {
    if reply.MetaFailed? || |reply.content| == 0 then Fail
    else
      var c := reply.content[0];
      if Present(year) then
        if c.timeline.NullTimeline? then Fail
        else match FirstYearMatch(c.Entries(), year.value)
        case None => Fail
        case Some(k) =>
          var matched := c.Entries()[k].id;
          if Present(matched) && matched.value != id then Redirect(matched.value)
          else if !Present(matched) then Fail
          else Resolve(Resolved(id, c.moveDir, c))
      else Resolve(Resolved(id, c.moveDir, c))
  }

  /** What one `get_panorama_metadata` call did: the ids whose metadata it
      fetched, in order, and the panorama it resolved, if any. */
  datatype MetadataRun = MetadataRun(fetched: seq<string>, result: Option<Resolved>)

  /** `get_panorama_metadata(panorama_id, target_year)`, with its recursive
      call unrolled: a redirect re-runs the decision once, without a year,
      so it cannot redirect again. */
  function GetPanoramaMetadata(panoId: Option<string>, year: Option<string>, meta: string -> MetaReply): (r: MetadataRun)
    ensures |r.fetched| <= 2
    ensures !Present(panoId) ==> r == MetadataRun([], None)
    ensures Present(panoId) ==> |r.fetched| >= 1 && r.fetched[0] == panoId.value
    ensures !Present(year) ==> |r.fetched| <= 1
    ensures Present(panoId) && (meta(panoId.value).MetaFailed? || |meta(panoId.value).content| == 0) ==>
      r == MetadataRun([panoId.value], None)
    ensures r.result.Some? ==>
      && r.result.value.id == r.fetched[|r.fetched| - 1]
      && r.result.value.id != ""
      && meta(r.result.value.id).MetaReply?
      && |meta(r.result.value.id).content| > 0
      && r.result.value.content == meta(r.result.value.id).content[0]
      && r.result.value.moveDir == r.result.value.content.moveDir
  {
    if !Present(panoId) then MetadataRun([], None)
    else
      var id := panoId.value;
      match Decide(id, year, meta(id))
      case Fail => MetadataRun([id], None)
      case Resolve(res) => MetadataRun([id], Some(res))
      case Redirect(to) =>
        match Decide(to, None, meta(to))
        case Resolve(res) => MetadataRun([id, to], Some(res))
        case _ => MetadataRun([id, to], None)
  }

  /** No nearest-year fallback: when a year is requested and no timeline
      entry of the first reply carries it, resolution fails after a single
      fetch. */
  lemma YearAbsentFails(panoId: string, year: string, meta: string -> MetaReply)
    requires panoId != "" && year != ""
    requires meta(panoId).MetaReply? && |meta(panoId).content| > 0
    requires forall e :: e in meta(panoId).content[0].Entries() ==> e.year != Some(year)
    ensures GetPanoramaMetadata(Some(panoId), Some(year), meta) == MetadataRun([panoId], None)
  {
  }

  /** Only the first entry for the requested year counts: if its id is set
      and differs from the current one, the result is exactly the metadata
      of that id fetched without a year; if its id is missing, resolution
      fails even when a later entry for the same year has one. */
  lemma FirstMatchRedirects(panoId: string, year: string, meta: string -> MetaReply, k: nat)
    requires panoId != "" && year != ""
    requires meta(panoId).MetaReply? && |meta(panoId).content| > 0
    requires var es := meta(panoId).content[0].Entries();
      k < |es| && es[k].year == Some(year) && forall j :: 0 <= j < k ==> es[j].year != Some(year)
    ensures var target := meta(panoId).content[0].Entries()[k].id;
      var r := GetPanoramaMetadata(Some(panoId), Some(year), meta);
      && (Present(target) && target.value != panoId ==>
            r.fetched == [panoId] + GetPanoramaMetadata(target, None, meta).fetched
            && r.result == GetPanoramaMetadata(target, None, meta).result)
      && (!Present(target) ==> r == MetadataRun([panoId], None))
      && (target == Some(panoId) ==> r.fetched == [panoId] && r.result.Some? && r.result.value.id == panoId)
  {
  }

  /** Without a requested year the first reply is authoritative: the result
      is the current id with the reply's first content and its `MoveDir`, or
      a failure when the reply has no content. */
  lemma NoYearResolvesInPlace(panoId: string, year: Option<string>, meta: string -> MetaReply)
    requires panoId != "" && !Present(year)
    ensures var r := GetPanoramaMetadata(Some(panoId), year, meta);
      && r.fetched == [panoId]
      && (r.result.Some? <==> meta(panoId).MetaReply? && |meta(panoId).content| > 0)
  {
  }

  /** A `TimeLine` of `null` is harmless without a requested year, but with
      one the loop over it raises, the error is caught, and resolution fails
      after a single fetch. */
  lemma NullTimelineFailsOnlyWithYear(panoId: string, year: string, meta: string -> MetaReply)
    requires panoId != "" && year != ""
    requires meta(panoId).MetaReply? && |meta(panoId).content| > 0
    requires meta(panoId).content[0].timeline.NullTimeline?
    ensures GetPanoramaMetadata(Some(panoId), Some(year), meta) == MetadataRun([panoId], None)
    ensures GetPanoramaMetadata(Some(panoId), None, meta).result.Some?
  {
  }
}

=== FILE: orchestrator.dfy ===
/** main.py: the per-point pipeline and its status classifier, the resume
    filter, and the batch loop that appends one result row per point and
    records every processed id in the checkpoint set. The coordinate
    transform (`core.coordinate.wgs2bd09mc`) is not part of this model and is
    the oracle `transform`; every server and the file system are oracles in
    `Services`. */
module Orchestrator {
  import opened Common
  import opened MetaData
  import opened Panorama
  import opened StreetView
  import FileIO
  import Grid

  /** Column names of the input table. */
  const PidField := "PID"
  const LonField := "Lon"
  const LatField := "Lat"
  /** The helper column `df['_pid_str']` added before the loop. */
  const PidStrField := "_pid_str"

  /** A cell of the result table. `Content` and the path list are kept
      structured; their string rendering is not modelled. */
  datatype Value = Null | Text(text: string) | Number(number: real) | ContentValue(content: Content) | PathList(paths: seq<ImagePath>)

  type Row = map<string, Value>

  /** One input row: its `PID` as a string, its `Lon` and `Lat`, and all of
      its columns by name. */
  datatype SamplePoint = SamplePoint(pid: string, lon: real, lat: real, columns: Row)

  /** The `process_status` of a point; `Error` keeps the truncated message. */
  datatype Status = Success | CoordinateFailure | NoPanorama | MetadataFailure | ImageFailure | Error(detail: string)

  function StatusText(s: Status): string {
    match s
    case Success => "success"
    case CoordinateFailure => "coordinate_failure"
    case NoPanorama => "no_panorama"
    case MetadataFailure => "metadata_failure"
    case ImageFailure => "image_failure"
    case Error(detail) => "error: " + detail
  }

  /** The result dictionary of `process_sample_point`. `imagePaths` is `None`
      on the branches whose dictionary has no `BD_ImagePaths` key. */
  datatype PointResult = PointResult(bdId: Option<string>, moveDir: Option<real>, content: Option<Content>,
                                     imagePaths: Option<seq<ImagePath>>, status: Status)

  /** The transform's reply: a coordinate pair (either half may be `None`),
      or the message of an exception it raised. */
  datatype Transformed = Converted(x: Option<real>, y: Option<real>) | Raised(message: string)

  /** The outside world one point's pipeline talks to. */
  datatype Services = Services(
    transform: (real, real) -> Transformed,
    lookup: (real, real) -> IdReply,
    meta: string -> MetaReply,
    fetchView: (string, real) -> Option<nat>,
    saveView: ImagePath -> bool,
    fetchTile: TileRequest -> Option<TileData>,
    savePanorama: ImagePath -> bool)

  /** The command-line and configuration choices the pipeline reads. */
  datatype Settings = Settings(useDirectional: bool, useMoveDir: bool, targetYear: Option<string>, zoom: int)

  /** `str(e)[:100]`. */
  function Truncate(message: string): (t: string)
    ensures |t| <= 100 && |t| <= |message| && t == message[..|t|]
    ensures |message| <= 100 ==> t == message
  {
    if |message| <= 100 then message else message[..100]
  }

  function Failed(status: Status, bdId: Option<string>): PointResult {
    PointResult(bdId, None, None, None, status)
  }

  /** The images of a resolved panorama, by the configured strategy. */
  function AcquireImages(p: SamplePoint, s: Settings, env: Services, id: string, moveDir: Option<real>): (paths: seq<ImagePath>)
    ensures |paths| <= if s.useDirectional then 4 else 1
  {
    if s.useDirectional then
      DownloadDirectionalImages(Some(id), moveDir, p.pid, p.lon, p.lat, s.useMoveDir, env.fetchView, env.saveView)
    else
      var run := DownloadPanorama(Some(id), p.pid, p.lon, p.lat, s.zoom, env.fetchTile,
                                  env.savePanorama(PanoramicPath(p.pid, p.lon, p.lat)));
      if run.saved.Some? then [run.saved.value.path] else []
  }

  /** `process_sample_point(row, use_directional, use_move_dir, target_year)`:
      the stages run in order and the first one that fails decides the
      status. */
  function ProcessSamplePoint(p: SamplePoint, s: Settings, env: Services): (r: PointResult)
    ensures r.status.Error? <==> env.transform(p.lon, p.lat).Raised?
    ensures r.status.Error? ==>
      && r.status.detail == Truncate(env.transform(p.lon, p.lat).message)
      && r == Failed(r.status, None)
    ensures r.status == CoordinateFailure <==>
      env.transform(p.lon, p.lat).Converted? && (env.transform(p.lon, p.lat).x.None? || env.transform(p.lon, p.lat).y.None?)
    ensures r.status == NoPanorama <==>
      (var t := env.transform(p.lon, p.lat);
       t.Converted? && t.x.Some? && t.y.Some? && !Present(GetPanoramaId(t.x, t.y, env.lookup).id))
    ensures r.status == NoPanorama ==> r == Failed(NoPanorama, None)
    ensures r.status == MetadataFailure <==>
      (var t := env.transform(p.lon, p.lat);
       && t.Converted? && t.x.Some? && t.y.Some?
       && var id := GetPanoramaId(t.x, t.y, env.lookup).id;
       && Present(id)
       && var md := GetPanoramaMetadata(id, s.targetYear, env.meta).result;
       md.None? || !md.value.content.NonEmpty())
    ensures r.status == MetadataFailure ==>
      var t := env.transform(p.lon, p.lat);
      r == Failed(MetadataFailure, GetPanoramaId(t.x, t.y, env.lookup).id) && Present(r.bdId)
    ensures r.imagePaths.Some? ==>
      var t := env.transform(p.lon, p.lat);
      && t.Converted? && t.x.Some? && t.y.Some?
      && var md := GetPanoramaMetadata(GetPanoramaId(t.x, t.y, env.lookup).id, s.targetYear, env.meta).result;
      && md.Some?
      && r.bdId == Some(md.value.id) && r.moveDir == md.value.moveDir && r.content == Some(md.value.content)
      && r.imagePaths == Some(AcquireImages(p, s, env, md.value.id, md.value.moveDir))
    ensures r.imagePaths.Some? <==> r.status == Status.Success || r.status == ImageFailure
    ensures r.status == Status.Success <==> r.imagePaths.Some? && |r.imagePaths.value| > 0
    ensures r.imagePaths.Some? ==>
      && |r.imagePaths.value| <= (if s.useDirectional then 4 else 1)
      && Present(r.bdId) && r.content.Some? && r.content.value.NonEmpty()
  {
    match env.transform(p.lon, p.lat)
    case Raised(message) => Failed(Error(Truncate(message)), None)
    case Converted(x, y) =>
      if x.None? || y.None? then Failed(CoordinateFailure, None)
      else
        var panoId := GetPanoramaId(x, y, env.lookup).id;
        if !Present(panoId) then Failed(NoPanorama, None)
        else
          var md := GetPanoramaMetadata(panoId, s.targetYear, env.meta).result;
          if md.None? || !md.value.content.NonEmpty() then Failed(MetadataFailure, panoId)
          else
            var res := md.value;
            var paths := AcquireImages(p, s, env, res.id, res.moveDir);
            PointResult(Some(res.id), res.moveDir, Some(res.content), Some(paths),
                        if |paths| > 0 then Status.Success else ImageFailure)
  }

  /** A failed coordinate transform stops the pipeline: no later service
      influences the result. */
  lemma CoordinateFailureShortCircuits(p: SamplePoint, s: Settings, env: Services, other: Services)
    requires other.transform == env.transform
    requires ProcessSamplePoint(p, s, env).status == CoordinateFailure
    ensures ProcessSamplePoint(p, s, other) == ProcessSamplePoint(p, s, env) == Failed(CoordinateFailure, None)
  {
  }

  /** A missing panorama id stops the pipeline before the metadata query and
      any image download. */
  lemma NoPanoramaShortCircuits(p: SamplePoint, s: Settings, env: Services, other: Services)
    requires other.transform == env.transform && other.lookup == env.lookup
    requires ProcessSamplePoint(p, s, env).status == NoPanorama
    ensures ProcessSamplePoint(p, s, other) == ProcessSamplePoint(p, s, env)
  {
  }

  /** A metadata failure stops the pipeline before any image download. */
  lemma MetadataFailureShortCircuits(p: SamplePoint, s: Settings, env: Services, other: Services)
    requires other.transform == env.transform && other.lookup == env.lookup && other.meta == env.meta
    requires ProcessSamplePoint(p, s, env).status == MetadataFailure
    ensures ProcessSamplePoint(p, s, other) == ProcessSamplePoint(p, s, env)
  {
  }

  /** A requested year missing from the resolved panorama's timeline is a
      metadata failure, never a fall back to another year. */
  lemma YearAbsentIsMetadataFailure(p: SamplePoint, s: Settings, env: Services, x: real, y: real, id: string)
    requires env.transform(p.lon, p.lat) == Converted(Some(x), Some(y))
    requires env.lookup(x, y) == IdReply(Some(id)) && id != ""
    requires Present(s.targetYear)
    requires env.meta(id).MetaReply? && |env.meta(id).content| > 0
    requires forall e :: e in env.meta(id).content[0].Entries() ==> e.year != s.targetYear
    ensures ProcessSamplePoint(p, s, env).status == MetadataFailure
  {
    YearAbsentFails(id, s.targetYear.value, env.meta);
  }

  /** In panoramic mode, a resolved panorama for which some tile arrived and
      whose save succeeds is a success with exactly one path. */
  lemma PanoramicTilesGiveSuccess(p: SamplePoint, s: Settings, env: Services, id: string, c: Grid.Cell)
    requires !s.useDirectional
    requires var t := env.transform(p.lon, p.lat);
      t.Converted? && t.x.Some? && t.y.Some? && GetPanoramaId(t.x, t.y, env.lookup).id.Some?
    requires var t := env.transform(p.lon, p.lat);
      var md := GetPanoramaMetadata(GetPanoramaId(t.x, t.y, env.lookup).id, s.targetYear, env.meta).result;
      md.Some? && md.value.id == id && md.value.content.NonEmpty()
    requires Grid.InGrid(c, TileInfo(s.zoom).0, TileInfo(s.zoom).1)
    requires Kept(env.fetchTile(TileRequest(id, c.row, c.col, s.zoom)))
    requires env.savePanorama(PanoramicPath(p.pid, p.lon, p.lat))
    requires forall q :: Kept(env.fetchTile(q)) ==> env.fetchTile(q).value.decoded.Some?
    ensures ProcessSamplePoint(p, s, env).status == Status.Success
    ensures ProcessSamplePoint(p, s, env).imagePaths == Some([PanoramicPath(p.pid, p.lon, p.lat)])
  {
    PanoramaFromPartialTiles(id, p.pid, p.lon, p.lat, s.zoom, env.fetchTile, c);
  }

  /** The dictionary `process_sample_point` returns. */
  function ResultColumns(r: PointResult): (cols: Row)
    ensures cols.Keys == {"BD_ID", "BD_MoveDir", "BD_Content", "process_status"}
                         + (if r.imagePaths.Some? then {"BD_ImagePaths"} else {})
    ensures cols["process_status"] == Text(StatusText(r.status))
  {
    var base := map[
      "BD_ID" := (if r.bdId.Some? then Text(r.bdId.value) else Null),
      "BD_MoveDir" := (if r.moveDir.Some? then Number(r.moveDir.value) else Null),
      "BD_Content" := (if r.content.Some? then ContentValue(r.content.value) else Null),
      "process_status" := Text(StatusText(r.status))];
    if r.imagePaths.Some? then base["BD_ImagePaths" := PathList(r.imagePaths.value)] else base
  }

  /** `{**row.to_dict(), **result}`: result fields override input columns of
      the same name; every other input column, `_pid_str` included, passes
      through. */
  function OutputRow(p: SamplePoint, r: PointResult): (row: Row)
    ensures row.Keys == p.columns.Keys + {PidStrField} + ResultColumns(r).Keys
    ensures forall k :: k in ResultColumns(r) ==> row[k] == ResultColumns(r)[k]
    ensures forall k :: k in p.columns && k !in ResultColumns(r) && k != PidStrField ==> row[k] == p.columns[k]
    ensures PidStrField !in ResultColumns(r) && row[PidStrField] == Text(p.pid)
  {
    p.columns[PidStrField := Text(p.pid)] + ResultColumns(r)
  }

  /** The previous output file, if any: its `PID` column read as strings
      (`None` when it has no such column) and its rows. */
  datatype OutputFile = OutputFile(pidColumn: Option<seq<string>>, rows: seq<Row>)

  /** The ids already processed: none unless resuming from an existing
      output file; then its `PID` column if present, else the checkpoint
      file. */
  function ProcessedPids(resume: bool, output: Option<OutputFile>, progress: Option<string>, progressReadOk: bool)
    : (done: set<string>)
    ensures !resume || output.None? ==> done == {}
    ensures resume && output.Some? && output.value.pidColumn.Some? ==>
      forall pid :: pid in done <==> pid in output.value.pidColumn.value
    ensures resume && output.Some? && output.value.pidColumn.None? ==>
      done == FileIO.LoadProgress(progress, progressReadOk)
  {
    if !resume || output.None? then {}
    else if output.value.pidColumn.Some? then set k | 0 <= k < |output.value.pidColumn.value| :: output.value.pidColumn.value[k]
    else FileIO.LoadProgress(progress, progressReadOk)
  }

  function Unprocessed(done: set<string>): SamplePoint -> bool {
    (p: SamplePoint) => p.pid !in done
  }

  /** `df[~df['_pid_str'].isin(processed_pids)]`. */
  function PendingPoints(points: seq<SamplePoint>, done: set<string>): seq<SamplePoint> {
    Filter(points, Unprocessed(done))
  }

  /** Resuming processes exactly the complement of the processed ids, in
      input order; when every id is processed, nothing is left. */
  lemma ResumeProcessesComplement(points: seq<SamplePoint>, done: set<string>)
    ensures var pending := PendingPoints(points, done);
      && (forall i :: 0 <= i < |pending| ==> pending[i] in points && pending[i].pid !in done)
      && (forall i :: 0 <= i < |points| && points[i].pid !in done ==> points[i] in pending)
      && IsSubsequence(pending, points)
      && ((forall i :: 0 <= i < |points| ==> points[i].pid in done) ==> pending == [])
      && |pending| == Count(points, Unprocessed(done))
  {
    var pending := PendingPoints(points, done);
    FilterIsSubsequence(points, Unprocessed(done));
    FilterLength(points, Unprocessed(done));
  }

  /** `unprocessed_df.iloc[i:i + batch]` for `i` in `range(0, total, batch)`. */
  function Batches<T>(s: seq<T>, size: int): seq<seq<T>>
    requires size > 0
    decreases |s|
  {
    if s == [] then [] else if |s| <= size then [s] else [s[..size]] + Batches(s[size..], size)
  }

  function Flatten<T>(ss: seq<seq<T>>): seq<T> {
    if ss == [] then [] else ss[0] + Flatten(ss[1..])
  }

  /** The batches are consecutive slices that together are the input: each
      non-empty, none larger than `size`, all but the last exactly `size`. */
  lemma {:induction false} BatchesPartition<T>(s: seq<T>, size: int)
    requires size > 0
    ensures Flatten(Batches(s, size)) == s
    ensures forall i :: 0 <= i < |Batches(s, size)| ==> 0 < |Batches(s, size)[i]| <= size
    ensures forall i :: 0 <= i < |Batches(s, size)| - 1 ==> |Batches(s, size)[i]| == size
    decreases |s|
  {
    if s != [] && |s| > size {
      BatchesPartition(s[size..], size);
      assert s == s[..size] + s[size..];
      var bs := Batches(s, size);
      assert bs[1..] == Batches(s[size..], size);
    }
  }

  /** The number of batches of `n` points: `len(range(0, n, size))`. */
  function NumBatches(n: int, size: int): nat
    requires size > 0
    decreases n
  {
    if n <= 0 then 0 else 1 + NumBatches(n - size, size)
  }

  /** There is one batch per started slice of `size` points. */
  lemma {:induction false} BatchesLength<T>(s: seq<T>, size: int)
    requires size > 0
    ensures |Batches(s, size)| == NumBatches(|s|, size)
    decreases |s|
  {
    if |s| > size {
      BatchesLength(s[size..], size);
    }
  }

  /** There are `(total - 1) // batch + 1` batches. */
  lemma {:induction false} BatchCount(n: int, size: int)
    requires size > 0 && n > 0
    ensures NumBatches(n, size) == (n - 1) / size + 1
    decreases n
  {
    if n <= size {
      DivSmall(n - 1, size);
    } else {
      BatchCount(n - size, size);
      DivStep(n - 1 - size, size);
    }
  }

  lemma DivSmall(n: int, d: int)
    requires 0 <= n < d
    ensures n / d == 0
  {
  }

  lemma DivStep(n: int, d: int)
    requires 0 <= n && 0 < d
    ensures (n + d) / d == n / d + 1
  {
    var q, r := n / d, n % d;
    assert n == q * d + r && 0 <= r < d;
    assert n + d == (q + 1) * d + r;
    Grid.DivMod(n + d, d, q + 1, r);
  }

  /** The ids of `points`. */
  function Pids(points: seq<SamplePoint>): set<string> {
    set k | 0 <= k < |points| :: points[k].pid
  }

  lemma PidsAppend(a: seq<SamplePoint>, b: seq<SamplePoint>)
    ensures Pids(a + b) == Pids(a) + Pids(b)
  {
    forall pid | pid in Pids(a + b) ensures pid in Pids(a) + Pids(b) {
      var k :| 0 <= k < |a + b| && (a + b)[k].pid == pid;
      if k >= |a| {
        assert b[k - |a|].pid == pid;
      }
    }
    forall pid | pid in Pids(a) ensures pid in Pids(a + b) {
      var k :| 0 <= k < |a| && a[k].pid == pid;
      assert (a + b)[k] == a[k];
    }
    forall pid | pid in Pids(b) ensures pid in Pids(a + b) {
      var k :| 0 <= k < |b| && b[k].pid == pid;
      assert (a + b)[|a| + k] == b[k];
    }
  }

  /** `f` applied to every element of `s`, in order. */
  function Map<A, B>(s: seq<A>, f: A -> B): (r: seq<B>)
    ensures |r| == |s|
  {
    seq(|s|, k requires 0 <= k < |s| => f(s[k]))
  }

  lemma MapAppend<A, B>(a: seq<A>, b: seq<A>, f: A -> B)
    ensures Map(a + b, f) == Map(a, f) + Map(b, f)
  {
    var l, r := Map(a + b, f), Map(a, f) + Map(b, f);
    forall k | 0 <= k < |l| ensures l[k] == r[k] {
      if k < |a| {
        assert (a + b)[k] == a[k];
      } else {
        assert (a + b)[k] == b[k - |a|];
      }
    }
  }

  /** A point's merged result row. */
  function MergeRow(s: Settings, env: Services): SamplePoint -> Row {
    (p: SamplePoint) => OutputRow(p, ProcessSamplePoint(p, s, env))
  }

  /** The merged result rows of `points`, one per point, in order. */
  function MergedRows(points: seq<SamplePoint>, s: Settings, env: Services): seq<Row> {
    Map(points, MergeRow(s, env))
  }

  /** Extending a processed prefix by the points up to `end` appends their
      rows and ids. */
  lemma PrefixExtend<R>(points: seq<SamplePoint>, start: int, end: int, merge: SamplePoint -> R)
    requires 0 <= start <= end <= |points|
    ensures Map(points[..end], merge) == Map(points[..start], merge) + Map(points[start..end], merge)
    ensures Pids(points[..end]) == Pids(points[..start]) + Pids(points[start..end])
  {
    assert points[..end] == points[..start] + points[start..end];
    MapAppend(points[..start], points[start..end], merge);
    PidsAppend(points[..start], points[start..end]);
  }

  /** One iteration of the batch loop: `merge`, the per-point pipeline with
      its row merge (`MergeRow` in `Crawl`), on every point of the batch, in
      order, adding each id to the checkpoint set. */
  method ProcessBatch<R>(points: seq<SamplePoint>, merge: SamplePoint -> R) returns (rows: seq<R>, pids: set<string>)
    ensures rows == Map(points, merge)
    ensures pids == Pids(points)
  {
    rows, pids := [], {};
    var j := 0;
    while j < |points|
      invariant 0 <= j <= |points|
      invariant rows == Map(points[..j], merge)
      invariant pids == Pids(points[..j])
    {
      var row := merge(points[j]);
      PrefixExtend(points, j, j + 1, merge);
      assert points[j..j + 1] == [points[j]];
      rows := rows + [row];
      pids := pids + {points[j].pid};
      j := j + 1;
    }
    assert points[..j] == points;
  }

  /** The batch loop of `main`: process each batch in order, append its
      merged rows to the table and its ids to the checkpoint set, flush the
      table after every batch, and delay between batches. */
  method RunBatches<R>(pending: seq<SamplePoint>, batch: int, merge: SamplePoint -> R, prior: seq<R>, done: set<string>)
    returns (table: seq<R>, checkpoint: set<string>, flushes: nat, delays: nat)
    requires batch > 0 && |pending| > 0
    ensures table == prior + Map(pending, merge)
    ensures checkpoint == done + Pids(pending)
    ensures flushes == |Batches(pending, batch)| == NumBatches(|pending|, batch)
    ensures delays == flushes - 1
  {
    table, checkpoint, flushes, delays := prior, done, 0, 0;
    var start := 0;
    while start < |pending|
      invariant 0 <= start <= |pending|
      invariant table == prior + Map(pending[..start], merge)
      invariant checkpoint == done + Pids(pending[..start])
      invariant flushes + NumBatches(|pending| - start, batch) == NumBatches(|pending|, batch)
      invariant delays + (if start == |pending| then 1 else 0) == flushes
    {
      var end := if start + batch < |pending| then start + batch else |pending|;
      var rows, pids := ProcessBatch(pending[start..end], merge);
      PrefixExtend(pending, start, end, merge);
      assert (prior + Map(pending[..start], merge)) + rows == prior + (Map(pending[..start], merge) + rows);
      table := table + rows;
      checkpoint := checkpoint + pids;
      flushes := flushes + 1;
      if start + batch < |pending| {
        delays := delays + 1;
      }
      start := end;
    }
    assert pending[..start] == pending;
    BatchesLength(pending, batch);
  }

  /** Command-line choices of `main`. */
  datatype Args = Args(batch: int, resume: bool, settings: Settings)

  /** The input table: its column names and its rows. */
  datatype InputTable = InputTable(header: set<string>, points: seq<SamplePoint>)

  /** How `main` ends. `Finished.saved` is the result table as last written,
      `None` when no batch ran and nothing was written. */
  datatype CrawlOutcome =
    | MissingField(field: string)
    | NothingToProcess
    | BatchSizeError
    | Finished(saved: Option<seq<Row>>, checkpoint: set<string>, processed: nat, delays: nat)

  /** The rows of the previous output file that a resumed run extends. */
  function PriorRows(resume: bool, output: Option<OutputFile>): seq<Row> {
    if resume && output.Some? then output.value.rows else []
  }

  /** The part of `main` after the column check: drop the processed ids,
      stop when nothing is left, reject a batch size of 0, and otherwise run
      the batch loop, appending to `prior`. */
  method ProcessPending(points: seq<SamplePoint>, done: set<string>, args: Args, env: Services, prior: seq<Row>)
    returns (outcome: CrawlOutcome)
    ensures !outcome.MissingField?
    ensures var pending := PendingPoints(points, done);
      && (outcome.NothingToProcess? <==> |pending| == 0)
      && (outcome.BatchSizeError? <==> |pending| > 0 && args.batch == 0)
      && (outcome.Finished? <==> |pending| > 0 && args.batch != 0)
    ensures outcome.NothingToProcess? ==> forall i :: 0 <= i < |points| ==> points[i].pid in done
    ensures outcome.Finished? && args.batch > 0 ==>
      var pending := PendingPoints(points, done);
      && outcome.processed == |pending| > 0
      && outcome.saved == Some(prior + MergedRows(pending, args.settings, env))
      && outcome.checkpoint == done + Pids(pending)
      && outcome.delays == (|pending| - 1) / args.batch
    ensures outcome.Finished? && args.batch < 0 ==> outcome.saved.None? && outcome.processed == 0
  {
    var pending := PendingPoints(points, done);
    if |pending| == 0 {
      ResumeProcessesComplement(points, done);
      return NothingToProcess;
    }
    if args.batch == 0 {
      return BatchSizeError;
    } else if args.batch < 0 {
      return Finished(None, done, 0, 0);
    }
    outcome := RunPending(pending, done, args, env, prior);
  }

  /** The batch loop over a non-empty pending list with a positive batch
      size, as `main` reports it. */
  method RunPending(pending: seq<SamplePoint>, done: set<string>, args: Args, env: Services, prior: seq<Row>)
    returns (outcome: CrawlOutcome)
    requires |pending| > 0 && args.batch > 0
    ensures outcome.Finished?
    ensures outcome.processed == |pending|
    ensures outcome.saved == Some(prior + MergedRows(pending, args.settings, env))
    ensures outcome.checkpoint == done + Pids(pending)
    ensures outcome.delays == (|pending| - 1) / args.batch
  {
    var table, checkpoint, flushes, delays := RunBatches(pending, args.batch, MergeRow(args.settings, env), prior, done);
    BatchCount(|pending|, args.batch);
    outcome := Finished(Some(table), checkpoint, |pending|, delays);
  }

  /** `main()`, after argument parsing and reading the input table. */
  method Crawl(input: InputTable, args: Args, env: Services, output: Option<OutputFile>,
               progress: Option<string>, progressReadOk: bool) returns (outcome: CrawlOutcome)
    ensures outcome.MissingField? <==> !({PidField, LonField, LatField} <= input.header)
    ensures outcome.MissingField? ==> outcome.field in [PidField, LonField, LatField] && outcome.field !in input.header
    ensures outcome.MissingField? ==>
      outcome.field == if PidField !in input.header then PidField
                       else if LonField !in input.header then LonField
                       else LatField
    ensures outcome.NothingToProcess? ==>
      forall i :: 0 <= i < |input.points| ==>
        input.points[i].pid in ProcessedPids(args.resume, output, progress, progressReadOk)
    ensures outcome.Finished? && args.batch > 0 ==>
      var done := ProcessedPids(args.resume, output, progress, progressReadOk);
      var pending := PendingPoints(input.points, done);
      && outcome.processed == |pending| > 0
      && outcome.saved == Some(PriorRows(args.resume, output) + MergedRows(pending, args.settings, env))
      && outcome.checkpoint == done + Pids(pending)
      && outcome.delays == (|pending| - 1) / args.batch
    ensures outcome.Finished? && args.batch < 0 ==> outcome.saved.None? && outcome.processed == 0
    ensures outcome.BatchSizeError? ==> args.batch == 0
    ensures {PidField, LonField, LatField} <= input.header ==>
      var pending := PendingPoints(input.points, ProcessedPids(args.resume, output, progress, progressReadOk));
      && (outcome.NothingToProcess? <==> |pending| == 0)
      && (outcome.BatchSizeError? <==> |pending| > 0 && args.batch == 0)
      && (outcome.Finished? <==> |pending| > 0 && args.batch != 0)
  {
    if PidField !in input.header {
      return MissingField(PidField);
    } else if LonField !in input.header {
      return MissingField(LonField);
    } else if LatField !in input.header {
      return MissingField(LatField);
    }
    var done := ProcessedPids(args.resume, output, progress, progressReadOk);
    outcome := ProcessPending(input.points, done, args, env, PriorRows(args.resume, output));
  }
}

=== FILE: panorama.dfy ===
/** core/panorama.py: the zoom-dependent tile grid, the tile requests it
    submits, which replies it keeps, and when a stitched panorama is saved.
    The tile server is the oracle `fetch`; the concurrent fan-out is
    modelled as a sequential pass in submission order. */
module Panorama {
  import opened Common
  import opened Grid
  import opened ImageUtils

  /** The level whose grid an unknown zoom level falls back to. */
  const FallbackZoom := 3

  /** `calculate_tile_info`: the (rows, cols) tile grid of a zoom level. */
  function TileInfo(zoom: int): (shape: (int, int))
    ensures 1 <= shape.0 && 1 <= shape.1 && shape.0 * shape.1 <= 128
    ensures 2 <= zoom <= 5 ==> shape.1 == 2 * shape.0
  {
    if zoom == 1 then (1, 1)
    else if zoom == 2 then (1, 2)
    else if zoom == 3 then (2, 4)
    else if zoom == 4 then (4, 8)
    else if zoom == 5 then (8, 16)
    else (2, 4)
  }

  function Pow2(n: nat): nat {
    if n == 0 then 1 else 2 * Pow2(n - 1)
  }

  /** Each zoom step doubles the columns, and from level 2 on the rows as
      well: the grid of level `z` is `2^(z-2)` by `2^(z-1)`. */
  lemma TileInfoDoubling(zoom: int)
    requires 1 <= zoom <= 5
    ensures TileInfo(zoom).1 == Pow2(zoom - 1)
    ensures TileInfo(zoom).0 == if zoom == 1 then 1 else Pow2(zoom - 2)
  {
  }

  /** Any level outside 1..5 gets the level-3 grid; no level is rejected. */
  lemma TileInfoFallback(zoom: int)
    requires zoom < 1 || 5 < zoom
    ensures TileInfo(zoom) == TileInfo(FallbackZoom) == (2, 4)
  {
  }

  /** The query of one `download_panorama_tile` call (`sid`, `pos`, `z`). */
  datatype TileRequest = TileRequest(sid: string, row: int, col: int, zoom: int) {
    function Pos(): Cell {
      Cell(row, col)
    }
  }

  /** The requests submitted for panorama `sid`, in submission order. They
      carry the zoom level as given, even when the grid fell back. */
  function TileRequests(sid: string, zoom: int): seq<TileRequest> {
    var (rows, cols) := TileInfo(zoom);
    var cells := GridCells(rows, cols);
    seq(|cells|, k requires 0 <= k < |cells| => TileRequest(sid, cells[k].row, cells[k].col, zoom))
  }

  /** The submitted requests cover the grid exactly once: `rows * cols` of
      them, each for a distinct in-grid cell, every cell requested, and all
      with the caller's panorama id and zoom level. */
  lemma TileRequestsCoverGrid(sid: string, zoom: int, c: Cell)
    ensures var (rows, cols) := TileInfo(zoom);
      var reqs := TileRequests(sid, zoom);
      && |reqs| == rows * cols
      && (forall k :: 0 <= k < |reqs| ==> reqs[k].sid == sid && reqs[k].zoom == zoom && InGrid(reqs[k].Pos(), rows, cols))
      && (forall k :: 0 <= k < |reqs| ==> reqs[k].Pos() == Cell(k / cols, k % cols))
      && (forall i, j :: 0 <= i < j < |reqs| ==> reqs[i].Pos() != reqs[j].Pos())
      && (InGrid(c, rows, cols) ==> exists k :: 0 <= k < |reqs| && reqs[k].Pos() == c)
  {
    var (rows, cols) := TileInfo(zoom);
    var reqs := TileRequests(sid, zoom);
    GridCellsLength(rows, cols);
    GridCellsInGrid(rows, cols);
    GridCellsDistinct(rows, cols);
    assert forall k :: 0 <= k < |reqs| ==> reqs[k].Pos() == GridCells(rows, cols)[k];
    forall k | 0 <= k < |reqs| ensures reqs[k].Pos() == Cell(k / cols, k % cols) {
      GridCellsAt(rows, cols, k);
    }
    if InGrid(c, rows, cols) {
      GridCellsIndex(rows, cols, c);
      assert reqs[c.row * cols + c.col].Pos() == c;
    }
  }

  /** A tile reply: the number of bytes received and the size they decode
      to, `None` when they are not an image `Image.open` can read. */
  datatype TileData = TileData(bytes: nat, decoded: Option<Size>)

  /** `if tile_data:` keeps a reply that arrived and is non-empty; `None`
      stands for a download that raised. */
  predicate Kept(d: Option<TileData>) {
    d.Some? && d.value.bytes > 0
  }

  /** The `tiles` dictionary after the replies to the first `n` requests. */
  function CollectFirst(reqs: seq<TileRequest>, n: nat, fetch: TileRequest -> Option<TileData>): (t: Tiles)
    requires n <= |reqs|
    ensures t.WellFormed()
    ensures forall c :: c in t.size ==>
      exists k :: 0 <= k < n && reqs[k].Pos() == c && Kept(fetch(reqs[k])) && t.size[c] == fetch(reqs[k]).value.decoded
    ensures forall k :: 0 <= k < n && Kept(fetch(reqs[k])) ==> reqs[k].Pos() in t.size
  {
    if n == 0 then Tiles([], map[])
    else
      var t := CollectFirst(reqs, n - 1, fetch);
      var q := reqs[n - 1];
      var d := fetch(q);
      if Kept(d) then
        Tiles(if q.Pos() in t.size then t.order else t.order + [q.Pos()], t.size[q.Pos() := d.value.decoded])
      else t
  }

  /** The `tiles` dictionary built from the replies to `reqs`: a kept reply
      is stored under its `(row, col)`, a later reply for the same cell
      replacing the earlier value. */
  function CollectTiles(reqs: seq<TileRequest>, fetch: TileRequest -> Option<TileData>): (t: Tiles)
    ensures t.WellFormed()
    ensures forall c :: c in t.size ==>
      exists k :: 0 <= k < |reqs| && reqs[k].Pos() == c && Kept(fetch(reqs[k])) && t.size[c] == fetch(reqs[k]).value.decoded
    ensures forall k :: 0 <= k < |reqs| && Kept(fetch(reqs[k])) ==> reqs[k].Pos() in t.size
  {
    CollectFirst(reqs, |reqs|, fetch)
  }

  /** The tiles collected for a panorama are exactly the grid cells whose
      reply was kept, each holding that reply. */
  lemma CollectedTilesExact(sid: string, zoom: int, fetch: TileRequest -> Option<TileData>, c: Cell)
    ensures var (rows, cols) := TileInfo(zoom);
      var t := CollectTiles(TileRequests(sid, zoom), fetch);
      var q := TileRequest(sid, c.row, c.col, zoom);
      && (c in t.size <==> InGrid(c, rows, cols) && Kept(fetch(q)))
      && (c in t.size ==> t.size[c] == fetch(q).value.decoded)
  {
    var (rows, cols) := TileInfo(zoom);
    var reqs := TileRequests(sid, zoom);
    var q := TileRequest(sid, c.row, c.col, zoom);
    TileRequestsCoverGrid(sid, zoom, c);
    var t := CollectTiles(reqs, fetch);
    if c in t.size {
      var k :| 0 <= k < |reqs| && reqs[k].Pos() == c && Kept(fetch(reqs[k])) && t.size[c] == fetch(reqs[k]).value.decoded;
      assert reqs[k] == q;
    }
    if InGrid(c, rows, cols) && Kept(fetch(q)) {
      var k :| 0 <= k < |reqs| && reqs[k].Pos() == c;
      assert reqs[k] == q;
    }
  }

  /** A stitched panorama and the file it was saved to. */
  datatype SavedPanorama = SavedPanorama(path: ImagePath, image: Stitched)

  /** What one `download_panorama` call did: the tile requests it made, the
      tiles it kept, and the saved panorama, if any (`None` for Python's
      `None` return). */
  datatype PanoramaRun = PanoramaRun(requests: seq<TileRequest>, tiles: Tiles, saved: Option<SavedPanorama>)

  /** `download_panorama(panorama_id, pid, lon, lat, zoom_level)`; `saveOk`
      says whether writing the JPEG succeeds. */
  function DownloadPanorama(panoId: Option<string>, pid: string, lon: real, lat: real, zoom: int,
                            fetch: TileRequest -> Option<TileData>, saveOk: bool): (run: PanoramaRun)
    ensures !Present(panoId) ==> run.requests == [] && run.saved == None
    ensures Present(panoId) ==> run.requests == TileRequests(panoId.value, zoom)
    ensures run.tiles == CollectTiles(run.requests, fetch)
    ensures run.saved.Some? <==> && Present(panoId) && run.tiles.size != map[]
                                 && AllDecode(run.tiles, TileInfo(zoom).0, TileInfo(zoom).1) && saveOk
    ensures run.saved.Some? ==>
      && run.saved.value.path == PanoramicPath(pid, lon, lat)
      && |run.saved.value.image.placements| == TileInfo(zoom).0 * TileInfo(zoom).1
  {
    if !Present(panoId) then PanoramaRun([], Tiles([], map[]), None)
    else
      var (rows, cols) := TileInfo(zoom);
      var reqs := TileRequests(panoId.value, zoom);
      var tiles := CollectTiles(reqs, fetch);
      if tiles.size == map[] then PanoramaRun(reqs, tiles, None)
      else
        match StitchTiles(tiles, rows, cols)
        case Failure(_) => PanoramaRun(reqs, tiles, None)
        case Success(image) =>
          PanoramaRun(reqs, tiles, if saveOk then Some(SavedPanorama(PanoramicPath(pid, lon, lat), image)) else None)
  }

  /** A panorama whose id is present and for which at least one tile arrived
      is stitched over the full grid, blanks filling the missing cells, as
      long as every reply that arrives decodes; only a failed save can
      still lose it. */
  lemma PanoramaFromPartialTiles(panoId: string, pid: string, lon: real, lat: real, zoom: int,
                                 fetch: TileRequest -> Option<TileData>, c: Cell)
    requires panoId != ""
    requires InGrid(c, TileInfo(zoom).0, TileInfo(zoom).1)
    requires Kept(fetch(TileRequest(panoId, c.row, c.col, zoom)))
    requires forall q :: Kept(fetch(q)) ==> fetch(q).value.decoded.Some?
    ensures var run := DownloadPanorama(Some(panoId), pid, lon, lat, zoom, fetch, true);
      && run.saved.Some?
      && run.saved.value.image == StitchTiles(run.tiles, TileInfo(zoom).0, TileInfo(zoom).1).value
  {
    var (rows, cols) := TileInfo(zoom);
    var t := CollectTiles(TileRequests(panoId, zoom), fetch);
    CollectedTilesExact(panoId, zoom, fetch, c);
    assert forall d :: d in t.size ==> t.size[d].Some?;
    assert |t.order| > 0 && t.order[0] in t.size;
    assert AllDecode(t, rows, cols);
  }

  /** One in-grid reply that arrives but does not decode loses the whole
      panorama, however many other tiles arrived. */
  lemma UndecodableTileLosesPanorama(panoId: string, pid: string, lon: real, lat: real, zoom: int,
                                     fetch: TileRequest -> Option<TileData>, saveOk: bool, c: Cell)
    requires InGrid(c, TileInfo(zoom).0, TileInfo(zoom).1)
    requires Kept(fetch(TileRequest(panoId, c.row, c.col, zoom)))
    requires fetch(TileRequest(panoId, c.row, c.col, zoom)).value.decoded.None?
    ensures DownloadPanorama(Some(panoId), pid, lon, lat, zoom, fetch, saveOk).saved.None?
  {
    var (rows, cols) := TileInfo(zoom);
    var t := CollectTiles(TileRequests(panoId, zoom), fetch);
    CollectedTilesExact(panoId, zoom, fetch, c);
    UndecodableTileFails(t, rows, cols, c);
  }
}

=== FILE: street_view.dfy ===
/** core/street_view.py: the four camera headings of a directional capture
    and which of the four downloads end up in the result. The image server
    is the oracle `fetch` and the file system the oracle `save`. Headings
    are exact reals rather than binary floats. */
module StreetView {
  import opened Common

  /** The compass headings used when travel direction is off or unknown. */
  const AbsoluteHeadings: seq<real> := [0.0, 90.0, 180.0, 270.0]

  /** `calculate_headings(move_dir, use_move_dir)`. */
  function CalculateHeadings(moveDir: Option<real>, useMoveDir: bool): (hs: seq<real>)
    ensures |hs| == 4
    ensures forall k :: 0 <= k < 3 ==> hs[k + 1] == hs[k] + 90.0
    ensures forall k :: 0 <= k < 4 ==> hs[k] == hs[0] + 90.0 * k as real
    ensures !useMoveDir || moveDir.None? ==> hs == AbsoluteHeadings
    ensures useMoveDir && moveDir.Some? ==> moveDir.value in hs
  {
    if !useMoveDir then AbsoluteHeadings
    else if moveDir.None? then AbsoluteHeadings
    else
      var m := moveDir.value;
      if 0.0 <= m < 90.0 then [m, m + 90.0, m + 180.0, m + 270.0]
      else if 90.0 <= m < 180.0 then [m - 90.0, m, m + 90.0, m + 180.0]
      else if 180.0 <= m < 270.0 then [m - 180.0, m - 90.0, m, m + 90.0]
      else [m - 270.0, m - 180.0, m - 90.0, m]
  }

  /** For a travel direction in [0, 360) the headings are the compass
      headings rotated by `m` modulo 90: all four lie in [0, 360), the first
      in [0, 90), and `m` itself sits at index `floor(m / 90)`. */
  lemma HeadingsInRange(m: real)
    requires 0.0 <= m < 360.0
    ensures var hs := CalculateHeadings(Some(m), true);
      var q := (m / 90.0).Floor;
      && 0 <= q < 4
      && hs[0] == m - 90.0 * q as real
      && 0.0 <= hs[0] < 90.0
      && (forall k :: 0 <= k < 4 ==> hs[k] == hs[0] + AbsoluteHeadings[k] && 0.0 <= hs[k] < 360.0)
      && hs[q] == m
  {
    var q := (m / 90.0).Floor;
    assert q as real <= m / 90.0 < q as real + 1.0;
    assert 90.0 * (q as real) <= m < 90.0 * (q as real) + 90.0;
    if m < 90.0 {
      assert q == 0;
    } else if m < 180.0 {
      assert q == 1;
    } else if m < 270.0 {
      assert q == 2;
    } else {
      assert q == 3;
    }
  }

  /** A travel direction of exactly 360 takes the last branch and yields a
      heading of 360, outside [0, 360). */
  lemma HeadingsAt360()
    ensures CalculateHeadings(Some(360.0), true) == [90.0, 180.0, 270.0, 360.0]
  {
  }

  /** A downloaded image body is kept when it arrived and is non-empty. */
  predicate Fetched(d: Option<nat>) {
    d.Some? && d.value > 0
  }

  /** Whether the image for path `p` was downloaded and saved. */
  function Succeeded(panoId: string, fetch: (string, real) -> Option<nat>, save: ImagePath -> bool): ImagePath -> bool {
    (p: ImagePath) => p.DirectionalPath? && Fetched(fetch(panoId, p.heading)) && save(p)
  }

  /** The file each heading's image would be saved to, in heading order. */
  function Candidates(headings: seq<real>, pid: string, lon: real, lat: real): seq<ImagePath> {
    seq(|headings|, k requires 0 <= k < |headings| => DirectionalPath(pid, headings[k], lon, lat))
  }

  /** `download_directional_images`: the paths of the images that were both
      downloaded (`fetch(id, heading)` gives the body length, `None` when the
      download raised) and saved (`save`). */
  function DownloadDirectionalImages(panoId: Option<string>, moveDir: Option<real>, pid: string, lon: real, lat: real,
                                     useMoveDir: bool, fetch: (string, real) -> Option<nat>, save: ImagePath -> bool)
    : (paths: seq<ImagePath>)
    ensures !Present(panoId) ==> paths == []
    ensures |paths| <= 4
    ensures Present(panoId) ==>
      var cands := Candidates(CalculateHeadings(moveDir, useMoveDir), pid, lon, lat);
      && (forall i :: 0 <= i < |paths| ==>
            paths[i] in cands && Fetched(fetch(panoId.value, paths[i].heading)) && save(paths[i]))
      && (forall k :: 0 <= k < |cands| && Fetched(fetch(panoId.value, cands[k].heading)) && save(cands[k]) ==>
            cands[k] in paths)
  {
    if !Present(panoId) then []
    else
      var cands := Candidates(CalculateHeadings(moveDir, useMoveDir), pid, lon, lat);
      Filter(cands, Succeeded(panoId.value, fetch, save))
  }

  /** The result lists the successes in heading order, each once. */
  lemma DirectionalInHeadingOrder(panoId: string, moveDir: Option<real>, pid: string, lon: real, lat: real,
                                  useMoveDir: bool, fetch: (string, real) -> Option<nat>, save: ImagePath -> bool)
    requires panoId != ""
    ensures var paths := DownloadDirectionalImages(Some(panoId), moveDir, pid, lon, lat, useMoveDir, fetch, save);
      var cands := Candidates(CalculateHeadings(moveDir, useMoveDir), pid, lon, lat);
      IsSubsequence(paths, cands) && Distinct(paths)
  {
    var hs := CalculateHeadings(moveDir, useMoveDir);
    var cands := Candidates(hs, pid, lon, lat);
    var p := Succeeded(panoId, fetch, save);
    FilterIsSubsequence(cands, p);
    assert Distinct(cands) by {
      forall i, j | 0 <= i < j < |cands| ensures cands[i] != cands[j] {
        assert hs[i] == hs[0] + 90.0 * i as real && hs[j] == hs[0] + 90.0 * j as real;
      }
    }
    FilterDistinct(cands, p);
  }
}
